=== FILE: README.md ===
# StarSystems in Dafny

A model of the core of StarSystems, a small catalog of star systems and their planets. It covers both generations of the code:

- the packaged `src/starsystems` code;
- the older root-level modules. These hold the same records under the field names `star_type` and `distance_from_earth`.

The model covers:

- **Entities.** Planets and star systems are immutable datatypes. The four-way planet classification, `add_planet`, `has_planet`, `planet_count` and both generations' `to_dict` record forms (modules `Planets`, `StarSystems`, `LegacyModels`).
- **Search and statistics.** The order-preserving filters:
  - distance, spectral letter, planet presence, minimum planet count;
  - their composition in `filter_systems`;
  - the case-insensitive name search;
  - `get_statistics`, including the first-seen-order spectral distribution.

  All are pure functions over sequences (modules `Seqs`, `Text`, `Search`, `Statistics`).
- **Persistence.** The SQLite tables become an abstract store of two maps:
  - system rows keyed by name;
  - planet rows keyed by (planet name, system name).

  Saves are upserts that only grow or overwrite. Loads turn NULL into 0.0 or "Unknown". `find_all`, `find_by_name` and the planet load are methods that walk the store's keys. Batch saves count successes and failures against an abstract per-system outcome (modules `Store`, `Repository`). The older `database.py` has the same semantics and is modelled by the same members.
- **Ingestion.** Raw exoplanet-archive records have optional fields and a four-way raw number (missing, empty, parsed, unparsable). They are grouped by host star in first-seen order. The first record fixes a system's attributes, and planets are appended in record order. The unit multipliers are applied. The packaged service drops nameless planets; the older `web_data.py` names them "Unnamed Planet". The grouping loop is proved equal to an independent host-by-host reference definition (modules `Ingestion`, `ExoplanetService`, `WebData`).
- **The older application object.** `create_star_system`, the name-deduplicating merge in `import_from_web`, `save_to_db` counting and `search_by_mass`'s `None` convention. The older utils' nested-loop searches are also covered (modules `App`, `LegacyUtils`).

Paths below are relative to the repository root.

## Behaviour worth knowing

- **Dwarf threshold.** The comparison is strict, `mass < 0.1`, in both generations (`src/starsystems/models/planet.py:19`, `models.py:12`). So 0.099 is a Dwarf Planet and exactly 0.1 with radius 1.0 is Terrestrial, as `tests/test_models/test_planet.py:95-101` expects (`Planets.ClassifyBoundaries`).
- **Spectral distribution.** Every non-empty spectral type other than "Unknown" is counted by its first letter (`src/starsystems/services/search_service.py:178-183`). An M-type system therefore counts: for "G2V", "G5V", "K3V" and "M5V" the distribution is `{G:2, K:1, M:1}`, as `tests/test_services/test_search_service.py:190-203` expects (`Statistics.FourSystemBuckets`).
- **Save then find.** An empty spectral type is stored as is and reads back as "Unknown" (`src/starsystems/database/repository.py:122`). Planet rows are keyed by (planet name, system name) (`repository.py:39-48`), so planets sharing a name within one save collapse to the last one's values (`Store.SaveThenLoad`).
- **`search_planets_by_mass`.** Its docstring (`utils.py:45-46`) says "at least", but the comparison is strict (`utils.py:52`). The model follows the comparison.
- **Batch counts.** In `save_batch` the success counter is bumped before the commit made every 50 successes (`repository.py:90-94`). If that commit raises a storage error, the same system is also counted as failed (`repository.py:96-97`), so success + failed can exceed the number of systems by one per failing commit. `save_to_db` has the same shape (`star_system_app.py:105-118`). The model treats commits as infallible; see "Left out".

## Model

| member | source | states |
|---|---|---|
| Planets.Classify | src/starsystems/models/planet.py:18-26 | exactly one of four classes holds. Dwarf iff mass < 0.1, whatever the radius. Terrestrial iff 0.1 ≤ mass < 2 and radius < 1.5. Super-Earth iff 0.1 ≤ mass < 10 and (mass ≥ 2 or radius ≥ 1.5). Gas Giant iff mass ≥ 10. The older `models.py` classifies the same way. |
| Planets.ClassifyBoundaries | src/starsystems/models/planet.py:19-26 | boundary cases: 0.099 is Dwarf; 0.1 with radius 1.0 is Terrestrial; mass 2.0, or radius 1.5 with mass 1.0, is Super-Earth; 9.99 is Super-Earth; 10.0 is Gas Giant; zero and negative mass are Dwarf |
| Planets.ParseLabel | src/starsystems/models/planet.py:20-26 | the four label strings read back to their classes, and only those strings do |
| Planets.ToRecord | src/starsystems/models/planet.py:34-41 | `to_dict` copies name, mass, radius and orbit distance unchanged; its classification label reads back as `classify()` |
| Planets.RecordRoundTrip | src/starsystems/models/planet.py:34-41 | the planet can be rebuilt from its record |
| StarSystems.NewSystem | src/starsystems/models/star_system.py:10-13 | a new system has spectral type "Unknown", distance 0.0 and no planets, so `has_planet` is false; the older `models.py` constructor has the same defaults |
| StarSystems.AddPlanet | src/starsystems/models/star_system.py:20-21 | appends at the end: the count grows by one, earlier planets and the other fields are unchanged (as in the older `models.py`) |
| StarSystems.AddPlanets | star_system_app.py:26-29 | adding planets one by one leaves exactly the old planets followed by the new ones, in order |
| StarSystems.HasPlanetIffCount | src/starsystems/models/star_system.py:28-37 | `has_planet()` holds iff `planet_count() > 0`, and the count is the length of the planet list |
| StarSystems.DuplicateNamesKept | src/starsystems/models/star_system.py:20-21 | two planets of the same name are both kept, in order |
| StarSystems.ToSystemRecord | src/starsystems/models/star_system.py:44-51 | the record copies name, spectral type and distance; its planet count equals the length of its planet list and of the system's; each entry rebuilds the system's planet at that position, and its nested classification label reads back as that planet's `classify()` |
| StarSystems.RecordRoundTrip | src/starsystems/models/star_system.py:44-51 | the system can be rebuilt from its record |
| LegacyModels.ToLegacyPlanetRecord | models.py:21-27 | the older planet record has the four fields and no classification; the planet can be rebuilt from it |
| LegacyModels.ToLegacySystemRecord | models.py:47-53 | the older system record copies name, star type and distance, and lists planets in insertion order |
| LegacyModels.AgreesWithPackagedRecord | models.py:47-53 | the older record lists the same planets, in the same order and as many, as the packaged one |
| Search.Bucket | src/starsystems/services/search_service.py:90-92 | a system has a spectral bucket iff its type is non-empty and not "Unknown", and the bucket is the upper-cased first character of the type |
| Search.FilterByDistance | src/starsystems/services/search_service.py:64-67 | keeps exactly the systems with 0 < distance ≤ max, each as often as in the input, in order; zero-distance systems never pass |
| Search.FilterBySpectralType | src/starsystems/services/search_service.py:86-96 | keeps a system iff its type is non-empty, not "Unknown", and its upper-cased first letter equals some upper-cased requested type; order kept |
| Search.FilterByHasPlanets | src/starsystems/services/search_service.py:112-115 | keeps exactly the systems whose having planets matches the flag, in order |
| Search.FilterByMinPlanets | src/starsystems/services/search_service.py:131 | keeps exactly the systems with at least k planets, in order |
| Search.HasPlanetsPartition | src/starsystems/services/search_service.py:112-115 | the `True` and `False` results are disjoint and their lengths add up to the input length |
| Search.MinPlanetsZeroKeepsAll | src/starsystems/services/search_service.py:131 | a minimum of 0 or less keeps every system |
| Search.FilterSystems | src/starsystems/services/search_service.py:34-48 | the result is the order-preserving subsequence of systems that meet every supplied criterion, with multiplicities kept. With no criteria, or an empty spectral list, the input comes back unchanged. |
| Search.SearchByName | src/starsystems/services/search_service.py:147-151 | keeps exactly the systems whose lower-cased name contains the lower-cased query at some position, in order |
| Search.SearchIgnoresQueryCase | src/starsystems/services/search_service.py:147-150 | queries equal up to ASCII case give the same result |
| Search.EmptyQueryFindsAll | src/starsystems/services/search_service.py:147-151 | the empty query returns the input |
| Text.ContainsIffOccurs | src/starsystems/services/search_service.py:150 | Python's substring test holds iff the query occurs at some index of the name |
| Statistics.Bump | src/starsystems/services/search_service.py:183 | `dist[c] = dist.get(c, 0) + 1`: only `c`'s count grows, by one. A new letter is appended at the end. Letters stay distinct and counts positive. |
| Statistics.Distribution | src/starsystems/services/search_service.py:179-183 | each letter's count is the number of systems in that bucket; the counts add up to the number of systems with a known type |
| Statistics.DistributionLetters | src/starsystems/services/search_service.py:179-183 | a letter is listed iff some system falls in its bucket |
| Statistics.DistributionInFirstSeenOrder | src/starsystems/services/search_service.py:179-183 | the letters appear in order of first appearance: each listed letter has a system in its bucket, and a letter listed earlier has its first such system earlier in the input |
| Statistics.KnownDistances | src/starsystems/services/search_service.py:175 | exactly the systems with a positive distance, each as often as in the input, in order, so repeats count toward the average |
| Statistics.AverageDistance | src/starsystems/services/search_service.py:175-176 | the average is 0.0 when no distance is positive and positive otherwise |
| Statistics.AverageDistanceWithin | src/starsystems/services/search_service.py:175-176 | when the positive distances lie within [lo, hi], so does their average |
| Statistics.PlanetsCoverPlanetarySystems | src/starsystems/services/search_service.py:171-172 | systems with planets are no more than total planets |
| Statistics.GetStatistics | src/starsystems/services/search_service.py:162-192 | the empty list gives zero counts, a 0.0 average, an empty distribution and no per-system average. Otherwise: total = number of systems; systems with planets ≤ total systems and ≤ total planets; total planets = the sum of counts; per-system average = total planets / systems; the distribution is as in `Distribution`. |
| Statistics.FourSystemBuckets | tests/test_services/test_search_service.py:190-203 | for "G2V", "G5V", "K3V", "M5V" the distribution counts G twice and K and M once each, four in all |
| Statistics.ThreeSystemBuckets | src/starsystems/services/search_service.py:178-183 | for "G2V", "K5V", "M5V" the distribution counts G, K and M once each |
| Statistics.ThreeSystemCounts | src/starsystems/services/search_service.py:171 | for systems with 1, 2 and 0 planets, total planets is 3 |
| Statistics.ThreeSystemAverage | src/starsystems/services/search_service.py:175-176 | distances 10, 20 and 0 average to 15.0 |
| Store.LoadText | src/starsystems/database/repository.py:122 | `value or "Unknown"`: NULL and the empty string read back as "Unknown", a stored non-empty text as itself; so the result is never empty |
| Store.LoadNumber | src/starsystems/database/repository.py:123 | `float(v) if v else 0.0`: NULL reads as 0.0 and every stored number as itself |
| Store.LoadWrittenPlanet | src/starsystems/database/repository.py:134-139 | a planet written and read back is the same planet |
| Store.LastNamed | src/starsystems/database/repository.py:39-48 | the planet whose values survive a run of upserts: present iff some planet has that name, and then a planet of that name at a position after which no planet has that name (the last one) |
| Store.UpsertSystem | src/starsystems/database/repository.py:30-36 | the system row is inserted or overwritten by name; other rows are untouched; the row count grows iff the name is new |
| Store.UpsertPlanets | src/starsystems/database/repository.py:39-48 | planet keys become the old ones plus (name, system) of each saved planet. A key saved now holds the last same-named planet's values; every other row is unchanged. |
| Store.SaveSystem | src/starsystems/database/repository.py:24-50 | the save's overall effect on both tables. Other systems' rows are untouched. Every planet row whose key the save does not write is unchanged, in particular those of other systems, and no planet key is removed. The older `database.py` `save_system` performs the same two upserts. |
| Store.SaveIdempotent | src/starsystems/database/repository.py:30-48 | saving the same system twice leaves the store as saving it once |
| Store.LoadPlanets | src/starsystems/database/repository.py:175-188 | one planet per stored planet row of that system, each read with NULLs as 0.0, distinct names |
| Store.LoadSystem | src/starsystems/database/repository.py:158-190 | a stored system read back with its defaults and its planets |
| Store.SaveThenLoad | src/starsystems/database/repository.py:24-50 | after a save, reading the system back gives its distance and its spectral type ("Unknown" for an empty one). Per planet name, the last same-named planet is among those read; with distinct names, every saved planet is. |
| Store.SaveIntoEmptyRoundTrip | database.py:54-121 | a system with distinctly named planets saved into an empty store reads back with exactly as many planets, and the same ones |
| Repository.SaveKeepsPlanets | src/starsystems/database/repository.py:39-48 | after a save, the system's planet keys are the earlier ones plus the saved ones; other systems keep theirs |
| Repository.SaveThenCount | src/starsystems/database/repository.py:30-36 | after a save, the name is stored, and the count grows by one iff the name was new |
| Repository.FindAll | src/starsystems/database/repository.py:110-142 | one system per system row and no other: as many as `count()`, names distinct, each read back with defaults and only its own planets, so orphan planets never appear. The older `database.py` `load_systems` gives the same result. |
| Repository.FindByName | src/starsystems/database/repository.py:153-190 | `None` iff no system of that name is stored; otherwise the system as read back |
| Repository.Count | src/starsystems/database/repository.py:198-203 | the count is 0 iff there are no system rows |
| Repository.DeleteAll | src/starsystems/database/repository.py:205-211 | afterwards the count is 0 and no system has planets |
| Repository.SavedOnes | src/starsystems/database/repository.py:67-90 | exactly the systems whose save succeeds, in order: equal to filtering the input by a successful outcome |
| Repository.SaveAll | src/starsystems/database/repository.py:67-90 | saving in turn stores every saved name and leaves other system rows alone |
| Repository.Batch | src/starsystems/database/repository.py:61-102 | a batch completes iff no failure escapes (or all are caught). A completed batch's successes are exactly the successful saves, and with commits that never fail successes and failures add up to the number of systems. |
| Repository.BatchSavesTheSaved | src/starsystems/database/repository.py:67-97 | a completed batch leaves the store as saving exactly the successful systems, in order |
| Repository.SaveBatch | src/starsystems/database/repository.py:61-102 | only storage errors are counted; any other failure escapes. Completed (commits assumed not to fail): success + failed = number of systems, and the stored names grow by those saved. The empty list gives (0, 0) with the store unchanged. |
| Repository.AllSavedBatch | src/starsystems/database/repository.py:63-102 | when every save succeeds the batch reports (N, 0) and saves all of them |
| Ingestion.SafeFloat | src/starsystems/services/exoplanet_service.py:159-168 | missing, empty or unparsable input gives the default; a parsed value gives value × multiplier. The older `web_data.py` copy is the same function. |
| Ingestion.OrElse | src/starsystems/services/exoplanet_service.py:77 | `value or fallback` gives the fallback exactly for a missing or empty value (or the fallback itself) |
| Ingestion.HostName | src/starsystems/services/exoplanet_service.py:77 | a present, non-empty host name is kept as it is; a missing or empty one becomes "Unknown System"; so the result is never empty |
| Ingestion.CreateSystem | src/starsystems/services/exoplanet_service.py:99-109 | a host's system takes a present, non-empty spectral type from the record and "Unknown" when it is missing or empty. Its distance is parsecs × 3.26156 (0.0 when unusable), and it starts with no planets. The older `web_data.py` creates systems the same way. |
| Ingestion.WithPlanet | src/starsystems/services/exoplanet_service.py:83-85 | a made planet is appended; no planet leaves the system unchanged |
| Ingestion.MadeCount | src/starsystems/services/exoplanet_service.py:83-85 | the number of records that make a planet: the length of the filter of the records by making one |
| Ingestion.PlanetsForSelects | src/starsystems/services/exoplanet_service.py:77-85 | a host's planets are one per record of that host that makes a planet, and exactly the planets such records make |
| Ingestion.Step | src/starsystems/services/exoplanet_service.py:75-85 | one record adds one planet in total iff it makes one |
| Ingestion.Group | src/starsystems/services/exoplanet_service.py:71-87 | total planets equals the number of records that make a planet; systems are no more than records, and none iff there are no records |
| Ingestion.Hosts | src/starsystems/services/exoplanet_service.py:77-80 | the distinct host names, each once, exactly those of some record |
| Ingestion.GroupMatchesReference | src/starsystems/services/exoplanet_service.py:71-87 | the grouping loop yields one system per distinct host in first-appearance order. Each takes its attributes from the host's first record, and its planets are those the host's records make, in record order. |
| ExoplanetService.CreatePlanet | src/starsystems/services/exoplanet_service.py:120-146 | no planet iff the name is missing or empty. Otherwise mass is ×317.8 and radius ×11.2 from Jupiter units, the orbital value is unscaled, and unusable numbers become 0.0. |
| ExoplanetService.ParseSystems | src/starsystems/services/exoplanet_service.py:71-87 | parsing is the host-by-host grouping, one system per distinct host, with total planets = number of named records |
| ExoplanetService.FetchSystems | src/starsystems/services/exoplanet_service.py:35-41 | empty data gives no systems; otherwise the parsed systems, at least one |
| ExoplanetService.NamelessRecordsMakeSystemsOnly | src/starsystems/services/exoplanet_service.py:79-85 | records without planet names still create their systems but add no planets |
| ExoplanetService.NamedRecordsEachAddOne | src/starsystems/services/exoplanet_service.py:83-85 | when every record is named, total planets equals the number of records |
| WebData.WebPlanet | web_data.py:52-57 | every record makes a planet; a missing or empty name becomes "Unnamed Planet"; the same unit conversions apply |
| WebData.GetWebData | web_data.py:33-61 | empty data gives no systems. Otherwise the host-by-host grouping with distinct names, and total planets equals the number of records. |
| WebData.AgreesWhenAllNamed | web_data.py:52-59 | on records that all carry planet names, the two ingestion paths give the same systems |
| LegacyUtils.AllPlanets | utils.py:50-51 | every planet tagged with its system's name, system by system; as many as total planets |
| LegacyUtils.AllPlanetsMembers | utils.py:50-53 | a (system name, planet) pair is listed iff the planet belongs to a system of that name |
| LegacyUtils.Collect | utils.py:49-54 | the nested loop collects exactly the filter of the system-then-planet listing |
| LegacyUtils.SearchPlanetsByMass | utils.py:48-54 | keeps exactly the pairs whose planet's mass is strictly greater than the minimum, each as often as listed, in system-then-planet order: the filter of the listing |
| LegacyUtils.SearchPlanetsByType | utils.py:59-65 | a query equal to a label up to case yields exactly that class's planets, each as often as listed, in system-then-planet order; a query matching no label yields nothing |
| LegacyUtils.LabelsDistinctIgnoringCase | utils.py:63 | the four labels stay distinct after lower-casing |
| LegacyUtils.SearchSystemsByDistance | utils.py:71-77 | keeps exactly the systems with 0 < distance ≤ limit, in order; the same list as the packaged distance filter |
| App.CreateStarSystem | star_system_app.py:23-32 | with no or empty planets, returns nothing and leaves the list alone. Otherwise appends exactly one system with those fields and planets in order, and returns it. |
| App.MergeFetched | star_system_app.py:55-60 | appends exactly the fetched systems whose names are absent from the list as it was, in fetched order, each as often as it was fetched. Existing entries are unchanged; nothing is added iff every fetched name was present. |
| App.MergeIdempotent | star_system_app.py:55-60 | merging the same fetch again adds nothing |
| App.MergeKeepsNamesDistinct | star_system_app.py:55-60 | distinct names stay distinct when the fetched names are distinct |
| App.WebImportKeepsNamesDistinct | star_system_app.py:51-60 | importing a web fetch never introduces a repeated name |
| App.SaveToDb | star_system_app.py:96-124 | every failure is counted: saved + failed = number of systems, and the store holds exactly the successful saves |
| App.ImportFromWeb | star_system_app.py:51-64 | nothing fetched leaves the list alone and saves nothing. Otherwise the result is the merge followed by `save_to_db` of the whole merged list, whose counts add up to its length. |
| App.SearchByMass | star_system_app.py:74-82 | `None` iff no planet is heavier than the minimum; otherwise the same list as `search_planets_by_mass`: the pairs with mass strictly above the minimum, in system-then-planet order, each as often as listed, never empty |

## Left out

- HTTP fetching (`_fetch_raw_data`, `acquire_data`). Already fetched records are a parameter; a failed request in the older path is just empty data.
- The CLI front-ends, the web routes, templates, admin check and background sync thread. These are dispatch, presentation and concurrency.
- The SQLite engine, schema, indexes, connection handling and configuration. The store is two maps. The foreign key (which names a missing table and is never enforced) has no counterpart.
- Repository.Batch: a failed attempt leaves the store as it was. Rows a failing system wrote before its error are not modelled, nor is the loss of uncommitted work when a failure escapes. These are transaction semantics; the outcome of each attempt is an abstract function of the system.
- Repository.Batch, Repository.SaveBatch: the commit every 50 successes is assumed never to fail. In the code a storage error raised by that commit is counted as a failure after the system was already counted as a success (`repository.py:90-97`), so success + failed = N + 1 for each failing commit; the model's success + failed = N holds only when no such commit fails.
- App.SaveToDb: the same holds for its commit every 50 saves (`star_system_app.py:105-118`); the model's saved + failed = N assumes that commit never fails.
- Repository.SaveBatch, App.SaveToDb: the final commit after the loop (`repository.py:100`, `star_system_app.py:121`) is outside every `try`, so a storage error there escapes after the counts are complete. The model treats that commit as infallible: a batch with no escaping save outcome always completes with its counts.
- App.SaveToDb: each older `save_system` commits on its own connection, and the outer connection commits nothing of its own; only the counts and the resulting store are modelled.
- Repository.FindAll: the order of rows is left open (there is no ORDER BY), so results are stated as listings: count, distinct names and membership. The same goes for Store.LoadPlanets.
- Statistics.GetStatistics: the averages are exact reals, not rounded to two decimals.
- Ingestion.SafeFloat: Python's string-to-float parsing is abstracted into the raw-number datatype; arithmetic is on exact reals, not floating point.
- CSV import and export (`load_from_csv`, `save_to_csv`, `import_from_csv`), `list_systems`, `load_from_db` (a plain reload), `__str__`, and the app's `search_by_type`/`search_by_distance` pass-throughs. These are file I/O, printing, or direct calls of modelled members.
- `get_planets_by_type` in `database.py`: it calls a method that planets do not have.
- Text.Lower: case mapping is ASCII only; Unicode case folding is not modelled.
- App.CreateStarSystem: the planet dictionaries are given as planet values; the key lookup `p['distance']` is not modelled.
- The `print` of each failure and of the final counts (`repository.py:98`, `star_system_app.py:61`, `star_system_app.py:114`, `star_system_app.py:118`, `star_system_app.py:124`) is output only and is not modelled.
- Masses, radii and distances are exact reals in every module, so NaN and infinities are not modelled. In the code a NaN mass fails every comparison of `classify()` and falls through to "Gas Giant".
- Store.SaveSystem: a storage error escaping `save` itself (`repository.py:24-50`) is not modelled; the single-system save always succeeds, and only the batch saves have an error path.

=== FILE: app.dfy ===
/** The older application object's in-memory list of systems: creating a system, merging
    systems fetched from the web, saving the list, and the mass search's return convention. */
module App {
  import opened Wrappers
  import opened Seqs
  import opened Planets
  import opened StarSystems
  import opened Store
  import opened Repository
  import opened LegacyUtils
  import opened Ingestion
  import opened WebData

  datatype Created = Created(systems: seq<StarSystem>, created: Option<StarSystem>)

  /** Creates a system with the given planets and appends it to the list; with no planets
      nothing is created and the list is left alone. */
  function CreateStarSystem(systems: seq<StarSystem>, name: string, starType: string, distance: real,
                            planets: Option<seq<Planet>>): (r: Created)
    ensures r.created.None? <==> planets.None? || planets.value == []
    ensures r.created.None? ==> r.systems == systems
    ensures r.created.Some? ==> r.systems == systems + [r.created.value]
    ensures r.created.Some? ==> r.created.value.name == name && r.created.value.spectralType == starType
    ensures r.created.Some? ==> r.created.value.distanceLy == distance && r.created.value.planets == planets.value
  {
    if planets.None? || planets.value == [] then Created(systems, None)
    else
      var s := AddPlanets(StarSystem(name, starType, distance, []), planets.value);
      Created(systems + [s], Some(s))
  }

  datatype Merged = Merged(systems: seq<StarSystem>, added: nat)

  /** Appends the fetched systems whose names are not among those listed before the merge,
      in fetched order; existing entries are untouched. Names are checked against the
      list as it was, so two fetched systems of the same new name are both appended. */
  function MergeFetched(systems: seq<StarSystem>, fetched: seq<StarSystem>): (r: Merged)
    ensures |r.systems| == |systems| + r.added
    ensures r.systems[..|systems|] == systems
    ensures forall x :: x in r.systems[|systems|..] <==> x in fetched && x.name !in NameSet(systems)
    ensures IsSubseq(r.systems[|systems|..], fetched)
    ensures forall x ::
              multiset(r.systems[|systems|..])[x] == if x.name !in NameSet(systems) then multiset(fetched)[x] else 0
    ensures r.added == 0 <==> forall x :: x in fetched ==> x.name in NameSet(systems)
    ensures fetched == [] ==> r.systems == systems && r.added == 0
  {
    var existing := NameSet(systems);
    var isNew := (s: StarSystem) => s.name !in existing;
    var newOnes := Filter(isNew, fetched);
    var merged := systems + newOnes;
    assert merged[..|systems|] == systems && merged[|systems|..] == newOnes;
    FilterMultiset(isNew, fetched);
    assert (forall x :: x in fetched ==> x.name in existing) ==> newOnes == [] by {
      if forall x :: x in fetched ==> x.name in existing {
        FilterNone(isNew, fetched);
      }
    }
    Merged(merged, |newOnes|)
  }

  /** After a merge, every fetched system's name is listed. */
  lemma MergeCoversFetched(systems: seq<StarSystem>, fetched: seq<StarSystem>)
    ensures forall x :: x in fetched ==> x.name in NameSet(MergeFetched(systems, fetched).systems)
  {
    var once := MergeFetched(systems, fetched).systems;
    forall x | x in fetched ensures x.name in NameSet(once) {
      if x.name !in NameSet(systems) {
        assert x in once[|systems|..];
        var k :| 0 <= k < |once[|systems|..]| && once[|systems|..][k] == x;
        assert once[|systems| + k] == x;
      } else {
        var i :| 0 <= i < |systems| && systems[i].name == x.name;
        assert once[i] == systems[i];
      }
    }
  }

  /** Merging the same fetch a second time adds nothing. */
  lemma MergeIdempotent(systems: seq<StarSystem>, fetched: seq<StarSystem>)
    ensures MergeFetched(MergeFetched(systems, fetched).systems, fetched).added == 0
    ensures MergeFetched(MergeFetched(systems, fetched).systems, fetched).systems
            == MergeFetched(systems, fetched).systems
  {
    var once := MergeFetched(systems, fetched).systems;
    MergeCoversFetched(systems, fetched);
    var twice := MergeFetched(once, fetched);
    assert twice.systems == once + twice.systems[|once|..];
  }

  ghost predicate DistinctNames(systems: seq<StarSystem>) {
    forall i, j :: 0 <= i < j < |systems| ==> systems[i].name != systems[j].name
  }

  /** Appending systems with distinct names, none of them already listed, keeps names distinct. */
  lemma AppendDistinctNames(a: seq<StarSystem>, b: seq<StarSystem>)
    requires DistinctNames(a) && DistinctNames(b)
    requires forall x :: x in b ==> x.name !in NameSet(a)
    ensures DistinctNames(a + b)
  {
    var r := a + b;
    forall i, j | 0 <= i < j < |r| ensures r[i].name != r[j].name {
      if j < |a| {
        assert r[i] == a[i] && r[j] == a[j];
      } else if i < |a| {
        assert r[i] == a[i] && a[i].name in NameSet(a);
        assert r[j] == b[j - |a|] && b[j - |a|] in b;
      } else {
        assert r[i] == b[i - |a|] && r[j] == b[j - |a|];
      }
    }
  }

  /** Distinct names stay distinct when the fetched systems have distinct names. */
  lemma MergeKeepsNamesDistinct(systems: seq<StarSystem>, fetched: seq<StarSystem>)
    requires forall i, j :: 0 <= i < j < |systems| ==> systems[i].name != systems[j].name
    requires forall i, j :: 0 <= i < j < |fetched| ==> fetched[i].name != fetched[j].name
    ensures var r := MergeFetched(systems, fetched).systems;
      forall i, j :: 0 <= i < j < |r| ==> r[i].name != r[j].name
  {
    var r := MergeFetched(systems, fetched).systems;
    var newOnes := r[|systems|..];
    assert r == systems + newOnes;
    forall a, b | 0 <= a < b < |newOnes| ensures newOnes[a].name != newOnes[b].name {
      FreshNamesDistinct(fetched, newOnes, a, b);
    }
    AppendDistinctNames(systems, newOnes);
  }

  /** Importing a web fetch into a list without repeated names keeps it without repeats. */
  lemma WebImportKeepsNamesDistinct(systems: seq<StarSystem>, data: seq<RawRecord>)
    requires forall i, j :: 0 <= i < j < |systems| ==> systems[i].name != systems[j].name
    ensures var r := MergeFetched(systems, GetWebData(data)).systems;
      forall i, j :: 0 <= i < j < |r| ==> r[i].name != r[j].name
  {
    MergeKeepsNamesDistinct(systems, GetWebData(data));
  }

  /** A subsequence of a list with distinct names has distinct names. */
  lemma {:induction false} FreshNamesDistinct(fetched: seq<StarSystem>, newOnes: seq<StarSystem>, a: nat, b: nat)
    requires forall i, j :: 0 <= i < j < |fetched| ==> fetched[i].name != fetched[j].name
    requires IsSubseq(newOnes, fetched)
    requires a < b < |newOnes|
    ensures newOnes[a].name != newOnes[b].name
    decreases |fetched|
  {
    var rest := fetched[1..];
    assert forall i, j :: 0 <= i < j < |rest| ==> rest[i].name != rest[j].name by {
      forall i, j | 0 <= i < j < |rest| ensures rest[i].name != rest[j].name {
        assert rest[i] == fetched[i + 1] && rest[j] == fetched[j + 1];
      }
    }
    if newOnes[0] == fetched[0] && IsSubseq(newOnes[1..], rest) {
      if a == 0 {
        SubseqMembers(newOnes[1..], rest);
        assert newOnes[b] == newOnes[1..][b - 1];
        assert newOnes[1..][b - 1] in newOnes[1..];
        var k :| 0 <= k < |rest| && rest[k] == newOnes[b];
        assert fetched[k + 1] == newOnes[b];
      } else {
        FreshNamesDistinct(fetched[1..], newOnes[1..], a - 1, b - 1);
      }
    } else {
      FreshNamesDistinct(rest, newOnes, a, b);
    }
  }

  /** Every element of a subsequence is an element of the whole. */
  lemma {:induction false} SubseqMembers<T>(xs: seq<T>, ys: seq<T>)
    requires IsSubseq(xs, ys)
    ensures forall x :: x in xs ==> x in ys
    decreases |ys|
  {
    if xs != [] {
      if xs[0] == ys[0] && IsSubseq(xs[1..], ys[1..]) {
        SubseqMembers(xs[1..], ys[1..]);
        assert forall x :: x in xs ==> x == xs[0] || x in xs[1..];
      } else {
        SubseqMembers(xs, ys[1..]);
      }
    }
  }

  /** Saves every listed system, counting each failure of any kind and carrying on. */
  function SaveToDb(db: Db, systems: seq<StarSystem>, outcome: StarSystem -> SaveOutcome): (r: BatchResult)
    ensures r.Completed?
    ensures r.saved + r.failed == |systems|
    ensures r.saved == |SavedOnes(systems, outcome)|
    ensures r.db == SaveAll(db, SavedOnes(systems, outcome))
  {
    BatchSavesTheSaved(db, systems, outcome, true);
    Batch(db, systems, outcome, true)
  }

  datatype WebImport = WebImport(merged: Merged, save: Option<BatchResult>)

  /** Merges already fetched systems into the list and then saves the whole list; with
      nothing fetched, the list is left alone and nothing is saved. */
  function ImportFromWeb(systems: seq<StarSystem>, fetched: seq<StarSystem>, db: Db,
                         outcome: StarSystem -> SaveOutcome): (r: WebImport)
    ensures fetched == [] ==> r.merged == Merged(systems, 0) && r.save.None?
    ensures fetched != [] ==> r.merged == MergeFetched(systems, fetched)
    ensures fetched != [] ==> (r.save.Some? && r.save.value.Completed?
      && r.save.value.saved + r.save.value.failed == |r.merged.systems|)
    ensures fetched != [] ==> r.save == Some(SaveToDb(db, r.merged.systems, outcome))
  {
    if fetched == [] then WebImport(Merged(systems, 0), None)
    else
      var m := MergeFetched(systems, fetched);
      WebImport(m, Some(SaveToDb(db, m.systems, outcome)))
  }

  /** The mass search as the application reports it: `None`, not an empty list, when no
      planet is heavier than `minMass`. */
  method SearchByMass(systems: seq<StarSystem>, minMass: real) returns (r: Option<seq<Hit>>)
    ensures r.None? <==> forall h :: h in AllPlanets(systems) ==> h.planet.mass <= minMass
    ensures r.Some? ==> (r.value != []
      && forall h :: h in r.value <==> h in AllPlanets(systems) && h.planet.mass > minMass)
    ensures r.Some? ==> r.value == Filter((h: Hit) => h.planet.mass > minMass, AllPlanets(systems))
  {
    var results := SearchPlanetsByMass(systems, minMass);
    if results == [] {
      return None;
    }
    assert results[0] in results;
    return Some(results);
  }
}

=== FILE: exoplanet_service.dfy ===
/** The packaged ingestion path: archive records to star systems, dropping nameless planets. */
module ExoplanetService {
  import opened Wrappers
  import opened Planets
  import opened StarSystems
  import opened Ingestion

  /** A record with a non-empty planet name. */
  predicate Named(rec: RawRecord) {
    rec.planetName.Some? && rec.planetName.value != ""
  }

  /** The planet a record describes, in Earth units, or `None` when it has no planet name.
      Mass and radius are converted from Jupiter units; the orbital value is taken as is;
      any unusable number becomes 0.0. */
  function CreatePlanet(rec: RawRecord): (r: Option<Planet>)
    ensures r.Some? <==> Named(rec)
    ensures r.Some? ==> r.value.name == rec.planetName.value
    ensures r.Some? ==> r.value.mass == (if rec.massJupiter.Num? then rec.massJupiter.value * 317.8 else 0.0)
    ensures r.Some? ==> r.value.radius == (if rec.radiusJupiter.Num? then rec.radiusJupiter.value * 11.2 else 0.0)
    ensures r.Some? ==> r.value.orbitDistance == (if rec.orbitalPeriod.Num? then rec.orbitalPeriod.value else 0.0)
  {
    if !Named(rec) then None
    else
      Some(Planet(rec.planetName.value,
                  SafeFloat(rec.massJupiter, 0.0, MassJupiterToEarth),
                  SafeFloat(rec.radiusJupiter, 0.0, RadiusJupiterToEarth),
                  SafeFloat(rec.orbitalPeriod, 0.0, 1.0)))
  }

  /** Groups records into systems; each named record's planet goes to its host's system. */
  function ParseSystems(data: seq<RawRecord>): (r: seq<StarSystem>)
    ensures r == Reference(data, CreatePlanet)
    ensures |r| == |Hosts(data)|
    ensures TotalPlanets(r) == MadeCount(data, CreatePlanet)
  {
    GroupMatchesReference(data, CreatePlanet);
    Group(data, CreatePlanet)
  }

  /** The systems for already fetched archive data; none for empty data. */
  function FetchSystems(data: seq<RawRecord>): (r: seq<StarSystem>)
    ensures r == [] <==> data == []
    ensures data != [] ==> r == ParseSystems(data)
  {
    if data == [] then [] else ParseSystems(data)
  }

  /** Records without a planet name still create their host's system, but add no planet. */
  lemma NamelessRecordsMakeSystemsOnly(data: seq<RawRecord>)
    requires forall k :: 0 <= k < |data| ==> !Named(data[k])
    ensures TotalPlanets(ParseSystems(data)) == 0
    ensures |ParseSystems(data)| == |Hosts(data)|
    ensures data != [] ==> ParseSystems(data) != []
  {
    NoRecordMakes(data, CreatePlanet);
  }

  /** When every record is named, every record contributes exactly one planet. */
  lemma NamedRecordsEachAddOne(data: seq<RawRecord>)
    requires forall k :: 0 <= k < |data| ==> Named(data[k])
    ensures TotalPlanets(ParseSystems(data)) == |data|
  {
    EveryRecordMakes(data, CreatePlanet);
  }
}

=== FILE: ingestion.dfy ===
/** Turning raw exoplanet-archive records into star systems: defensive number parsing,
    unit conversion, and grouping records by host star in first-seen order. Both ingestion
    paths share this; they differ only in how a record becomes a planet. */
module Ingestion {
  import opened Wrappers
  import opened Seqs
  import opened Planets
  import opened StarSystems

  /** A numeric field as it arrives: missing or null, the empty string, text or a number
      that parses as `value`, or something `float()` rejects. */
  datatype RawNumber = Absent | EmptyText | Num(value: real) | Unparsable

  /** One archive row. Text fields are `None` when missing or null. */
  datatype RawRecord = RawRecord(
    hostname: Option<string>,
    planetName: Option<string>,
    massJupiter: RawNumber,
    radiusJupiter: RawNumber,
    orbitalPeriod: RawNumber,
    spectralType: Option<string>,
    distanceParsec: RawNumber)

  const MassJupiterToEarth: real := 317.8
  const RadiusJupiterToEarth: real := 11.2
  const ParsecToLy: real := 3.26156
  const UnknownHost := "Unknown System"

  /** Converts a raw number, scaled by `multiplier`; anything missing, empty or unparsable
      gives `default`. */
  function SafeFloat(v: RawNumber, default: real, multiplier: real): (r: real)
    ensures v.Num? ==> r == v.value * multiplier
    ensures !v.Num? ==> r == default
  {
    match v
    case Num(x) => x * multiplier
    case _ => default
  }

  /** Python's `value or fallback` on an optional string: missing and empty both fall back. */
  function OrElse(v: Option<string>, fallback: string): (r: string)
    ensures r == fallback <==> v.None? || v.value == "" || v.value == fallback
    ensures r != fallback ==> v == Some(r)
  {
    if v.Some? && v.value != "" then v.value else fallback
  }

  /** The record's host name, "Unknown System" when it is missing or empty. */
  function HostName(rec: RawRecord): (h: string)
    ensures h != ""
    ensures rec.hostname.Some? && rec.hostname.value != "" ==> h == rec.hostname.value
    ensures !(rec.hostname.Some? && rec.hostname.value != "") ==> h == UnknownHost
  {
    OrElse(rec.hostname, UnknownHost)
  }

  /** The system a host's first record creates: its spectral type ("Unknown" when missing or
      empty), its distance converted from parsecs (0.0 when unusable), and no planets yet. */
  function CreateSystem(rec: RawRecord, host: string): (s: StarSystem)
    ensures s.name == host && s.planets == []
    ensures s.spectralType != ""
    ensures rec.spectralType.Some? && rec.spectralType.value != "" ==> s.spectralType == rec.spectralType.value
    ensures !(rec.spectralType.Some? && rec.spectralType.value != "") ==> s.spectralType == UnknownType
    ensures rec.distanceParsec.Num? ==> s.distanceLy == rec.distanceParsec.value * ParsecToLy
    ensures !rec.distanceParsec.Num? ==> s.distanceLy == 0.0
  {
    StarSystem(host, OrElse(rec.spectralType, UnknownType), SafeFloat(rec.distanceParsec, 0.0, ParsecToLy), [])
  }

  /** Appends the planet a record made, if it made one. */
  function WithPlanet(s: StarSystem, p: Option<Planet>): (r: StarSystem)
    ensures r.name == s.name && r.spectralType == s.spectralType && r.distanceLy == s.distanceLy
    ensures r.planets == s.planets + (if p.Some? then [p.value] else [])
  {
    if p.Some? then AddPlanet(s, p.value) else s
  }

  /** The position of the system called `name`, if there is one. */
  function Find(acc: seq<StarSystem>, name: string): (r: Option<nat>)
    ensures r.Some? ==> r.value < |acc| && acc[r.value].name == name
    ensures r.None? <==> forall i :: 0 <= i < |acc| ==> acc[i].name != name
    decreases |acc|
  {
    if acc == [] then None
    else if acc[0].name == name then Some(0)
    else
      match Find(acc[1..], name)
      case None => None
      case Some(j) => Some(j + 1)
  }

  /** The number of records that make a planet. */
  function MadeCount(data: seq<RawRecord>, mk: RawRecord -> Option<Planet>): (n: nat)
    ensures n <= |data|
    ensures n == |Filter((r: RawRecord) => mk(r).Some?, data)|
    decreases |data|
  {
    if data == [] then 0
    else
      var prefix, last := data[..|data| - 1], data[|data| - 1];
      assert data == prefix + [last];
      FilterSnoc((r: RawRecord) => mk(r).Some?, prefix, last);
      MadeCount(prefix, mk) + (if mk(last).Some? then 1 else 0)
  }

  /** One loop iteration: the record's host system is created from this record when it is
      new, and the record's planet, if any, is appended to that system. */
  function Step(acc: seq<StarSystem>, rec: RawRecord, mk: RawRecord -> Option<Planet>): (r: seq<StarSystem>)
    ensures TotalPlanets(r) == TotalPlanets(acc) + (if mk(rec).Some? then 1 else 0)
  {
    var host := HostName(rec);
    match Find(acc, host)
    case None =>
      var s := WithPlanet(CreateSystem(rec, host), mk(rec));
      TotalPlanetsAppend(acc, [s]);
      acc + [s]
    case Some(i) =>
      var s := WithPlanet(acc[i], mk(rec));
      TotalPlanetsUpdate(acc, i, s);
      acc[i := s]
  }

  /** Groups the records by host, in order; every planet made lands in exactly one system. */
  function Group(data: seq<RawRecord>, mk: RawRecord -> Option<Planet>): (r: seq<StarSystem>)
    ensures TotalPlanets(r) == MadeCount(data, mk)
    ensures |r| <= |data|
    ensures r == [] <==> data == []
    decreases |data|
  {
    if data == [] then []
    else
      var prev := Group(data[..|data| - 1], mk);
      var r := Step(prev, data[|data| - 1], mk);
      assert |r| >= 1;
      r
  }

  // ---------------------------------------------------------------------------
  // A reference definition of the grouping, host by host.

  /** The distinct hosts of `data`, in order of first appearance. */
  function Hosts(data: seq<RawRecord>): (hs: seq<string>)
    ensures forall i, j :: 0 <= i < j < |hs| ==> hs[i] != hs[j]
    ensures forall h :: h in hs <==> exists k :: 0 <= k < |data| && HostName(data[k]) == h
    decreases |data|
  {
    if data == [] then []
    else
      var prefix := data[..|data| - 1];
      var prev := Hosts(prefix);
      var h := HostName(data[|data| - 1]);
      assert forall k :: 0 <= k < |prefix| ==> prefix[k] == data[k];
      if h in prev then prev else prev + [h]
  }

  /** The position of the first record with host `h`. */
  function FirstIndex(data: seq<RawRecord>, h: string): (k: nat)
    requires h in Hosts(data)
    ensures k < |data| && HostName(data[k]) == h
    ensures forall j :: 0 <= j < k ==> HostName(data[j]) != h
    decreases |data|
  {
    var prefix := data[..|data| - 1];
    assert forall k :: 0 <= k < |prefix| ==> prefix[k] == data[k];
    if h in Hosts(prefix) then FirstIndex(prefix, h) else |data| - 1
  }

  /** The planets the records of host `h` make, in record order. */
  function PlanetsFor(data: seq<RawRecord>, h: string, mk: RawRecord -> Option<Planet>): (ps: seq<Planet>)
    ensures |ps| <= |data|
    decreases |data|
  {
    if data == [] then []
    else
      var rec := data[|data| - 1];
      PlanetsFor(data[..|data| - 1], h, mk)
        + (if HostName(rec) == h && mk(rec).Some? then [mk(rec).value] else [])
  }

  /** Host `h`'s planets: one per record of `h` that makes a planet, and exactly the
      planets such records make. */
  lemma {:induction false} PlanetsForSelects(data: seq<RawRecord>, h: string, mk: RawRecord -> Option<Planet>)
    ensures |PlanetsFor(data, h, mk)| == |Filter((r: RawRecord) => HostName(r) == h && mk(r).Some?, data)|
    ensures forall p :: p in PlanetsFor(data, h, mk) <==> exists r :: r in data && HostName(r) == h && mk(r) == Some(p)
    decreases |data|
  {
    if data != [] {
      var prefix, rec := data[..|data| - 1], data[|data| - 1];
      PlanetsForSelects(prefix, h, mk);
      assert data == prefix + [rec];
      FilterSnoc((r: RawRecord) => HostName(r) == h && mk(r).Some?, prefix, rec);
      assert forall r :: r in data <==> r in prefix || r == rec;
    }
  }

  /** Host `h`'s system: attributes from its first record, planets from all of its records. */
  function SystemFor(data: seq<RawRecord>, h: string, mk: RawRecord -> Option<Planet>): StarSystem
    requires h in Hosts(data)
  {
    var s := CreateSystem(data[FirstIndex(data, h)], h);
    s.(planets := PlanetsFor(data, h, mk))
  }

  function Reference(data: seq<RawRecord>, mk: RawRecord -> Option<Planet>): (r: seq<StarSystem>)
    ensures |r| == |Hosts(data)|
    ensures forall i :: 0 <= i < |r| ==> r[i].name == Hosts(data)[i]
  {
    var hs := Hosts(data);
    seq(|hs|, i requires 0 <= i < |hs| => SystemFor(data, hs[i], mk))
  }

  /** A host with no records has no planets. */
  lemma {:induction false} NoRecordsNoPlanets(data: seq<RawRecord>, h: string, mk: RawRecord -> Option<Planet>)
    requires h !in Hosts(data)
    ensures PlanetsFor(data, h, mk) == []
    decreases |data|
  {
    if data != [] {
      var prefix := data[..|data| - 1];
      assert forall k :: 0 <= k < |prefix| ==> prefix[k] == data[k];
      assert h !in Hosts(prefix);
      NoRecordsNoPlanets(prefix, h, mk);
    }
  }

  /** Hosts other than the last record's keep their system when that record is added. */
  lemma OtherHostsKept(data: seq<RawRecord>, mk: RawRecord -> Option<Planet>, g: string)
    requires data != [] && g in Hosts(data[..|data| - 1]) && g != HostName(data[|data| - 1])
    ensures SystemFor(data, g, mk) == SystemFor(data[..|data| - 1], g, mk)
  {
    var prefix := data[..|data| - 1];
    assert forall k :: 0 <= k < |prefix| ==> prefix[k] == data[k];
    assert FirstIndex(data, g) == FirstIndex(prefix, g);
  }

  /** A record of a host already seen adds its planet to that host's reference system. */
  lemma SeenHostSystem(data: seq<RawRecord>, mk: RawRecord -> Option<Planet>)
    requires data != [] && HostName(data[|data| - 1]) in Hosts(data[..|data| - 1])
    ensures SystemFor(data, HostName(data[|data| - 1]), mk)
            == WithPlanet(SystemFor(data[..|data| - 1], HostName(data[|data| - 1]), mk), mk(data[|data| - 1]))
  {
    var prefix := data[..|data| - 1];
    var h := HostName(data[|data| - 1]);
    assert forall k :: 0 <= k < |prefix| ==> prefix[k] == data[k];
    assert FirstIndex(data, h) == FirstIndex(prefix, h);
  }

  /** A record of a host already seen adds no host. */
  lemma SeenHostsSame(data: seq<RawRecord>)
    requires data != [] && HostName(data[|data| - 1]) in Hosts(data[..|data| - 1])
    ensures Hosts(data) == Hosts(data[..|data| - 1])
  {
    var prefix := data[..|data| - 1];
    assert forall k :: 0 <= k < |prefix| ==> prefix[k] == data[k];
  }

  /** When the last record's host `hs[i]` was already seen, only that host's system differs
      from the reference over the earlier records. */
  lemma ReferenceAfterSeen(data: seq<RawRecord>, mk: RawRecord -> Option<Planet>, i: nat)
    requires data != [] && Hosts(data) == Hosts(data[..|data| - 1])
    requires i < |Hosts(data)| && Hosts(data)[i] == HostName(data[|data| - 1])
    ensures Reference(data, mk)
            == Reference(data[..|data| - 1], mk)[i := SystemFor(data, HostName(data[|data| - 1]), mk)]
  {
    var prefix := data[..|data| - 1];
    var hs := Hosts(data);
    var ref := Reference(data, mk);
    var upd := Reference(prefix, mk)[i := SystemFor(data, hs[i], mk)];
    forall j | 0 <= j < |ref| ensures upd[j] == ref[j] {
      if j != i {
        OtherHostsKept(data, mk, hs[j]);
      }
    }
  }

  /** A record of a host already seen appends its planet to that host's system. */
  lemma SeenHostStep(data: seq<RawRecord>, mk: RawRecord -> Option<Planet>)
    requires data != [] && HostName(data[|data| - 1]) in Hosts(data[..|data| - 1])
    ensures Step(Reference(data[..|data| - 1], mk), data[|data| - 1], mk) == Reference(data, mk)
  {
    var prefix := data[..|data| - 1];
    var rec := data[|data| - 1];
    var h := HostName(rec);
    var prev := Reference(prefix, mk);
    SeenHostsSame(data);
    var k :| 0 <= k < |Hosts(prefix)| && Hosts(prefix)[k] == h;
    assert prev[k].name == h;
    var i := Find(prev, h).value;
    SeenHostSystem(data, mk);
    ReferenceAfterSeen(data, mk, i);
  }

  /** A record of a new host appends that host's system, created from this record. */
  lemma NewHostStep(data: seq<RawRecord>, mk: RawRecord -> Option<Planet>)
    requires data != [] && HostName(data[|data| - 1]) !in Hosts(data[..|data| - 1])
    ensures Step(Reference(data[..|data| - 1], mk), data[|data| - 1], mk) == Reference(data, mk)
  {
    var prefix := data[..|data| - 1];
    var rec := data[|data| - 1];
    var h := HostName(rec);
    var prev := Reference(prefix, mk);
    var hs := Hosts(prefix);
    assert forall k :: 0 <= k < |prefix| ==> prefix[k] == data[k];
    assert Find(prev, h).None?;
    assert Hosts(data) == hs + [h];
    var ref := Reference(data, mk);
    NoRecordsNoPlanets(prefix, h, mk);
    assert FirstIndex(data, h) == |data| - 1;
    assert SystemFor(data, h, mk) == WithPlanet(CreateSystem(rec, h), mk(rec));
    forall j | 0 <= j < |ref| ensures (prev + [WithPlanet(CreateSystem(rec, h), mk(rec))])[j] == ref[j] {
      if j < |hs| {
        OtherHostsKept(data, mk, hs[j]);
      }
    }
  }

  /** The grouping loop computes the host-by-host reference: one system per distinct host in
      order of first appearance, whose attributes come from that host's first record and
      whose planets are those its records make, in record order. */
  lemma {:induction false} GroupMatchesReference(data: seq<RawRecord>, mk: RawRecord -> Option<Planet>)
    ensures Group(data, mk) == Reference(data, mk)
    decreases |data|
  {
    if data != [] {
      var prefix := data[..|data| - 1];
      GroupMatchesReference(prefix, mk);
      if HostName(data[|data| - 1]) in Hosts(prefix) {
        SeenHostStep(data, mk);
      } else {
        NewHostStep(data, mk);
      }
    }
  }

  /** Planet makers that agree on every record give the same grouping. */
  lemma {:induction false} GroupCongruent(data: seq<RawRecord>, mk1: RawRecord -> Option<Planet>, mk2: RawRecord -> Option<Planet>)
    requires forall k :: 0 <= k < |data| ==> mk1(data[k]) == mk2(data[k])
    ensures Group(data, mk1) == Group(data, mk2)
    decreases |data|
  {
    if data != [] {
      var prefix := data[..|data| - 1];
      assert forall k :: 0 <= k < |prefix| ==> prefix[k] == data[k];
      GroupCongruent(prefix, mk1, mk2);
    }
  }

  /** When every record makes a planet, there are as many planets as records. */
  lemma {:induction false} EveryRecordMakes(data: seq<RawRecord>, mk: RawRecord -> Option<Planet>)
    requires forall k :: 0 <= k < |data| ==> mk(data[k]).Some?
    ensures MadeCount(data, mk) == |data|
    decreases |data|
  {
    if data != [] {
      var prefix := data[..|data| - 1];
      assert forall k :: 0 <= k < |prefix| ==> prefix[k] == data[k];
      EveryRecordMakes(prefix, mk);
    }
  }

  /** When no record makes a planet, there are none. */
  lemma {:induction false} NoRecordMakes(data: seq<RawRecord>, mk: RawRecord -> Option<Planet>)
    requires forall k :: 0 <= k < |data| ==> mk(data[k]).None?
    ensures MadeCount(data, mk) == 0
    decreases |data|
  {
    if data != [] {
      var prefix := data[..|data| - 1];
      assert forall k :: 0 <= k < |prefix| ==> prefix[k] == data[k];
      NoRecordMakes(prefix, mk);
    }
  }
}

=== FILE: legacy_models.dfy ===
/** The structured-record forms of the older root-level classes. They differ from the
    packaged ones: a planet record has no classification, and a system record uses the
    keys `star_type` and `distance_from_earth` and has no planet count. */
module LegacyModels {
  import opened Planets
  import opened StarSystems

  datatype LegacyPlanetRecord = LegacyPlanetRecord(
    name: string, mass: real, radius: real, orbitDistance: real)

  datatype LegacySystemRecord = LegacySystemRecord(
    name: string, starType: string, distanceFromEarth: real, planets: seq<LegacyPlanetRecord>)

  function ToLegacyPlanetRecord(p: Planet): (d: LegacyPlanetRecord)
    ensures FromLegacyPlanetRecord(d) == p
  {
    LegacyPlanetRecord(p.name, p.mass, p.radius, p.orbitDistance)
  }

  function FromLegacyPlanetRecord(d: LegacyPlanetRecord): Planet {
    Planet(d.name, d.mass, d.radius, d.orbitDistance)
  }

  /** The older `to_dict`: planets listed in insertion order. */
  function ToLegacySystemRecord(s: StarSystem): (d: LegacySystemRecord)
    ensures d.name == s.name && d.starType == s.spectralType && d.distanceFromEarth == s.distanceLy
    ensures |d.planets| == |s.planets|
    ensures forall i :: 0 <= i < |d.planets| ==> FromLegacyPlanetRecord(d.planets[i]) == s.planets[i]
  {
    LegacySystemRecord(s.name, s.spectralType, s.distanceLy,
                       seq(|s.planets|, i requires 0 <= i < |s.planets| => ToLegacyPlanetRecord(s.planets[i])))
  }

  /** The older record drops nothing but the derived classification: the packaged
      record of the same system carries the same planets in the same order. */
  lemma AgreesWithPackagedRecord(s: StarSystem)
    ensures |ToLegacySystemRecord(s).planets| == ToSystemRecord(s).planetCount
    ensures forall i :: 0 <= i < |s.planets| ==>
      FromLegacyPlanetRecord(ToLegacySystemRecord(s).planets[i]) == FromRecord(ToSystemRecord(s).planets[i])
  {
  }
}

=== FILE: legacy_utils.dfy ===
/** The older module's planet and system searches over an in-memory list of systems. */
module LegacyUtils {
  import opened Seqs
  import opened Text
  import opened Planets
  import opened StarSystems
  import Search

  /** A search hit: the name of the system a planet belongs to, and the planet. */
  datatype Hit = Hit(systemName: string, planet: Planet)

  /** The hits for the first `j` planets of `s`. */
  function HitsUpTo(s: StarSystem, j: nat): (r: seq<Hit>)
    requires j <= |s.planets|
    ensures |r| == j
    ensures forall k :: 0 <= k < j ==> r[k] == Hit(s.name, s.planets[k])
  {
    seq(j, k requires 0 <= k < j => Hit(s.name, s.planets[k]))
  }

  /** Every planet of every system, tagged with its system's name, system by system. */
  function AllPlanets(systems: seq<StarSystem>): (r: seq<Hit>)
    ensures |r| == TotalPlanets(systems)
    decreases |systems|
  {
    if systems == [] then []
    else HitsUpTo(systems[0], |systems[0].planets|) + AllPlanets(systems[1..])
  }

  lemma {:induction false} AllPlanetsAppend(a: seq<StarSystem>, b: seq<StarSystem>)
    ensures AllPlanets(a + b) == AllPlanets(a) + AllPlanets(b)
    decreases |a|
  {
    if a == [] {
      assert a + b == b;
    } else {
      assert (a + b)[1..] == a[1..] + b;
      AllPlanetsAppend(a[1..], b);
    }
  }

  /** A hit is listed exactly when its planet belongs to a system of that name. */
  lemma {:induction false} AllPlanetsMembers(systems: seq<StarSystem>, h: Hit)
    ensures h in AllPlanets(systems) <==>
      exists i :: 0 <= i < |systems| && systems[i].name == h.systemName && h.planet in systems[i].planets
    decreases |systems|
  {
    if systems != [] {
      AllPlanetsMembers(systems[1..], h);
      var own := HitsUpTo(systems[0], |systems[0].planets|);
      assert h in own <==> systems[0].name == h.systemName && h.planet in systems[0].planets;
      if exists i :: 0 <= i < |systems| && systems[i].name == h.systemName && h.planet in systems[i].planets {
        var i :| 0 <= i < |systems| && systems[i].name == h.systemName && h.planet in systems[i].planets;
        if i > 0 {
          assert systems[1..][i - 1] == systems[i];
        }
      }
    }
  }

  /** The inner loop over one system's planets, collecting the hits that satisfy `p`. */
  method CollectPlanets(s: StarSystem, p: Hit -> bool) returns (r: seq<Hit>)
    ensures r == Filter(p, HitsUpTo(s, |s.planets|))
  {
    r := [];
    var j := 0;
    while j < |s.planets|
      invariant 0 <= j <= |s.planets|
      invariant r == Filter(p, HitsUpTo(s, j))
    {
      var h := Hit(s.name, s.planets[j]);
      assert HitsUpTo(s, j + 1) == HitsUpTo(s, j) + [h];
      FilterSnoc(p, HitsUpTo(s, j), h);
      if p(h) {
        r := r + [h];
      }
      j := j + 1;
    }
  }

  /** Taking one more system adds the hits of its planets that satisfy `p`. */
  lemma CollectStep(systems: seq<StarSystem>, i: nat, p: Hit -> bool)
    requires i < |systems|
    ensures Filter(p, AllPlanets(systems[..i + 1]))
            == Filter(p, AllPlanets(systems[..i])) + Filter(p, HitsUpTo(systems[i], |systems[i].planets|))
  {
    var s := systems[i];
    assert systems[..i + 1] == systems[..i] + [s];
    AllPlanetsAppend(systems[..i], [s]);
    FilterAppend(p, AllPlanets(systems[..i]), AllPlanets([s]));
    assert AllPlanets([s]) == HitsUpTo(s, |s.planets|) + AllPlanets([]);
    assert HitsUpTo(s, |s.planets|) + AllPlanets([]) == HitsUpTo(s, |s.planets|);
  }

  /** The nested loop over systems and their planets, collecting the hits that satisfy `p`. */
  method Collect(systems: seq<StarSystem>, p: Hit -> bool) returns (r: seq<Hit>)
    ensures r == Filter(p, AllPlanets(systems))
  {
    r := [];
    var i := 0;
    while i < |systems|
      invariant 0 <= i <= |systems|
      invariant r == Filter(p, AllPlanets(systems[..i]))
    {
      var hits := CollectPlanets(systems[i], p);
      CollectStep(systems, i, p);
      r := r + hits;
      i := i + 1;
    }
    assert systems[..i] == systems;
  }

  /** The planets heavier than `minMass`, strictly, with their systems' names, in
      system-then-planet order. */
  method SearchPlanetsByMass(systems: seq<StarSystem>, minMass: real) returns (r: seq<Hit>)
    ensures forall h :: h in r <==> h in AllPlanets(systems) && h.planet.mass > minMass
    ensures IsSubseq(r, AllPlanets(systems))
    ensures forall h :: multiset(r)[h] == if h.planet.mass > minMass then multiset(AllPlanets(systems))[h] else 0
    ensures r == Filter((h: Hit) => h.planet.mass > minMass, AllPlanets(systems))
  {
    var heavier := (h: Hit) => h.planet.mass > minMass;
    r := Collect(systems, heavier);
    FilterMultiset(heavier, AllPlanets(systems));
  }

  /** The planets whose classification label equals `planetType`, ignoring case. */
  method SearchPlanetsByType(systems: seq<StarSystem>, planetType: string) returns (r: seq<Hit>)
    ensures forall c :: Lower(Label(c)) == Lower(planetType) ==>
      forall h :: h in r <==> h in AllPlanets(systems) && Classify(h.planet) == c
    ensures (forall c :: Lower(Label(c)) != Lower(planetType)) ==> r == []
    ensures IsSubseq(r, AllPlanets(systems))
    ensures forall h ::
              multiset(r)[h] == if Lower(Label(Classify(h.planet))) == Lower(planetType)
                                then multiset(AllPlanets(systems))[h] else 0
  {
    var ofType := (h: Hit) => Lower(Label(Classify(h.planet))) == Lower(planetType);
    r := Collect(systems, ofType);
    FilterMultiset(ofType, AllPlanets(systems));
    forall c1, c2 | Lower(Label(c1)) == Lower(Label(c2)) ensures c1 == c2 {
      LabelsDistinctIgnoringCase(c1, c2);
    }
    if r != [] {
      assert r[0] in r;
    }
  }

  /** The four labels stay distinct when lower-cased. */
  lemma LabelsDistinctIgnoringCase(c1: Classification, c2: Classification)
    requires Lower(Label(c1)) == Lower(Label(c2))
    ensures c1 == c2
  {
    var a, b := Lower(Label(c1)), Lower(Label(c2));
    assert |a| == |Label(c1)| && |b| == |Label(c2)|;
    assert a[0] == LowerChar(Label(c1)[0]) && b[0] == LowerChar(Label(c2)[0]);
  }

  /** The systems with 0 < distance <= `distance`, in order. */
  method SearchSystemsByDistance(systems: seq<StarSystem>, distance: real) returns (r: seq<StarSystem>)
    ensures forall x :: x in r <==> x in systems && 0.0 < x.distanceLy <= distance
    ensures IsSubseq(r, systems)
    ensures r == Search.FilterByDistance(systems, distance)
  {
    var p := (s: StarSystem) => distance >= s.distanceLy > 0.0;
    r := FilterLoop(p, systems);
    FilterCongruent(p, s => Search.WithinDistance(s, distance), systems);
  }
}

=== FILE: planet.dfy ===
/** The planet record and its classification rule. The older root-level `Planet`
    class holds the same four fields and the same rule, so both are this module. */
module Planets {
  import opened Wrappers

  /** Mass in Earth masses, radius in Earth radii; `orbitDistance` is an opaque number
      (an orbital period when the record came from the exoplanet archive). */
  datatype Planet = Planet(name: string, mass: real, radius: real, orbitDistance: real)

  datatype Classification = DwarfPlanet | Terrestrial | SuperEarth | GasGiant

  /** The four-way rule, checked in priority order Dwarf, Terrestrial, Super-Earth,
      Gas Giant. Every threshold is strict, the dwarf one included. */
  function Classify(p: Planet): (c: Classification)
    ensures c == DwarfPlanet <==> p.mass < 0.1
    ensures c == Terrestrial <==> 0.1 <= p.mass < 2.0 && p.radius < 1.5
    ensures c == SuperEarth <==> 0.1 <= p.mass < 10.0 && (p.mass >= 2.0 || p.radius >= 1.5)
    ensures c == GasGiant <==> p.mass >= 10.0
  {
    if p.mass < 0.1 then DwarfPlanet
    else if p.mass < 2.0 && p.radius < 1.5 then Terrestrial
    else if p.mass < 10.0 then SuperEarth
    else GasGiant
  }

  /** The label string the catalog shows for each class. */
  function Label(c: Classification): string {
    match c
    case DwarfPlanet => "Dwarf Planet"
    case Terrestrial => "Terrestrial"
    case SuperEarth => "Super-Earth"
    case GasGiant => "Gas Giant"
  }

  /** Reads a label back; the inverse of `Label`. */
  function ParseLabel(s: string): (r: Option<Classification>)
    ensures r.Some? ==> Label(r.value) == s
    ensures forall c :: Label(c) == s ==> r == Some(c)
  {
    if s == "Dwarf Planet" then Some(DwarfPlanet)
    else if s == "Terrestrial" then Some(Terrestrial)
    else if s == "Super-Earth" then Some(SuperEarth)
    else if s == "Gas Giant" then Some(GasGiant)
    else None
  }

  /** Boundary cases the catalog's tests pin down. */
  lemma ClassifyBoundaries()
    ensures Classify(Planet("", 0.099, 1.0, 1.0)) == DwarfPlanet
    ensures Classify(Planet("", 0.1, 1.0, 1.0)) == Terrestrial
    ensures Classify(Planet("", 1.99, 1.49, 1.0)) == Terrestrial
    ensures Classify(Planet("", 2.0, 1.0, 1.0)) == SuperEarth
    ensures Classify(Planet("", 1.0, 1.5, 1.0)) == SuperEarth
    ensures Classify(Planet("", 9.99, 3.0, 1.0)) == SuperEarth
    ensures Classify(Planet("", 10.0, 3.0, 1.0)) == GasGiant
    ensures Classify(Planet("", 0.0, 0.5, 1.0)) == DwarfPlanet
    ensures Classify(Planet("", -1.0, -1.0, -1.0)) == DwarfPlanet
  {
  }

  /** The structured-record form of a planet (`to_dict`): the four stored fields plus
      the classification label. */
  datatype PlanetRecord = PlanetRecord(
    name: string, mass: real, radius: real, orbitDistance: real, classification: string)

  function ToRecord(p: Planet): (d: PlanetRecord)
    ensures d.name == p.name && d.mass == p.mass && d.radius == p.radius
    ensures d.orbitDistance == p.orbitDistance
    ensures ParseLabel(d.classification) == Some(Classify(p))
  {
    PlanetRecord(p.name, p.mass, p.radius, p.orbitDistance, Label(Classify(p)))
  }

  /** Rebuilds a planet from its record; the classification is derived, so it is dropped. */
  function FromRecord(d: PlanetRecord): Planet {
    Planet(d.name, d.mass, d.radius, d.orbitDistance)
  }

  lemma RecordRoundTrip(p: Planet)
    ensures FromRecord(ToRecord(p)) == p
  {
  }
}

=== FILE: repository.dfy ===
/** The repository over the store: single and batch saves, lookups, counting and clearing. */
module Repository {
  import opened Wrappers
  import opened Seqs
  import opened StarSystems
  import opened Store

  /** A save never removes planets: afterwards the system's stored planet keys are the
      earlier ones plus those of the planets just saved, and other systems keep theirs. */
  lemma SaveKeepsPlanets(db: Db, s: StarSystem)
    ensures KeysOf(SaveSystem(db, s), s.name) == KeysOf(db, s.name) + KeysFor(s.planets, s.name)
    ensures forall n :: n != s.name ==> KeysOf(SaveSystem(db, s), n) == KeysOf(db, n)
  {
    var keys := SaveSystem(db, s).planets.Keys;
    assert keys == db.planets.Keys + KeysFor(s.planets, s.name);
    forall k | k in KeysFor(s.planets, s.name) ensures k.systemName == s.name {
      KeysForSystem(s.planets, s.name, k);
    }
    forall n | n != s.name ensures KeysOf(SaveSystem(db, s), n) == KeysOf(db, n) {
      SaveKeepsOtherPlanets(db, s, n);
    }
  }

  lemma SaveKeepsOtherPlanets(db: Db, s: StarSystem, n: string)
    requires n != s.name
    ensures KeysOf(SaveSystem(db, s), n) == KeysOf(db, n)
  {
    forall k | k in KeysFor(s.planets, s.name) ensures k.systemName == s.name {
      KeysForSystem(s.planets, s.name, k);
    }
  }

  /** The stored system names, each once, in table order, which the model leaves open. */
  method StoredNames(db: Db) returns (names: seq<string>)
    ensures |names| == |db.systems|
    ensures forall i, j :: 0 <= i < j < |names| ==> names[i] != names[j]
    ensures forall n :: n in db.systems <==> n in names
  {
    var todo := db.systems.Keys;
    names := [];
    while todo != {}
      invariant todo <= db.systems.Keys
      invariant forall n :: n in db.systems <==> n in todo || n in names
      invariant forall n :: n in todo ==> n !in names
      invariant |names| + |todo| == |db.systems|
      invariant forall i, j :: 0 <= i < j < |names| ==> names[i] != names[j]
      decreases |todo|
    {
      var n :| n in todo;
      names := names + [n];
      todo := todo - {n};
    }
  }

  /** `r[i]` is system `names[i]` as read back from `db`, for every entry of `r`. */
  ghost predicate LoadedAs(db: Db, names: seq<string>, r: seq<StarSystem>) {
    |r| <= |names| && forall i :: 0 <= i < |r| ==> r[i].name == names[i] && Loaded(db, names[i], r[i])
  }

  lemma LoadedAsExtend(db: Db, names: seq<string>, r: seq<StarSystem>, s: StarSystem)
    requires LoadedAs(db, names, r) && |r| < |names| && Loaded(db, names[|r|], s)
    ensures LoadedAs(db, names, r + [s])
  {
    forall i | 0 <= i < |r| + 1
      ensures (r + [s])[i].name == names[i] && Loaded(db, names[i], (r + [s])[i])
    {
      if i < |r| { assert (r + [s])[i] == r[i]; }
    }
  }

  /** Reads every system with its planets. One entry per stored system, in table order,
      which the model leaves open. */
  method FindAll(db: Db) returns (r: seq<StarSystem>)
    ensures |r| == |db.systems| == Count(db)
    ensures forall i, j :: 0 <= i < j < |r| ==> r[i].name != r[j].name
    ensures forall i :: 0 <= i < |r| ==> Loaded(db, r[i].name, r[i])
    ensures forall n :: n in db.systems <==> exists i :: 0 <= i < |r| && r[i].name == n
  {
    var names := StoredNames(db);
    r := [];
    var k := 0;
    while k < |names|
      invariant 0 <= k <= |names| && |r| == k
      invariant LoadedAs(db, names, r)
    {
      var s := LoadSystem(db, names[k]);
      LoadedAsExtend(db, names, r, s);
      r := r + [s];
      k := k + 1;
    }
    forall n | n in db.systems ensures exists i :: 0 <= i < |r| && r[i].name == n {
      var i :| 0 <= i < |names| && names[i] == n;
      assert r[i].name == n;
    }
  }

  /** Reads the system called `name`, or `None` when no such system is stored. */
  method FindByName(db: Db, name: string) returns (r: Option<StarSystem>)
    ensures r.None? <==> name !in db.systems
    ensures r.Some? ==> Loaded(db, name, r.value)
  {
    if name !in db.systems {
      return None;
    }
    var s := LoadSystem(db, name);
    r := Some(s);
  }

  /** The number of stored systems. */
  function Count(db: Db): (n: nat)
    ensures n == 0 <==> db.systems == map[]
  {
    |db.systems|
  }

  /** Removes every planet and every system. */
  function DeleteAll(db: Db): (r: Db)
    ensures Count(r) == 0
    ensures forall n :: KeysOf(r, n) == {}
  {
    EmptyDb
  }

  /** Saving a system makes it findable, and the count grows exactly when its name is new. */
  lemma SaveThenCount(db: Db, s: StarSystem)
    ensures s.name in SaveSystem(db, s).systems
    ensures Count(SaveSystem(db, s)) == Count(db) + (if s.name in db.systems then 0 else 1)
  {
  }

  /** What happens to one attempted save inside a batch: it succeeds, fails with a storage
      error (`sqlite3.Error`, which the batch counts and skips), or fails otherwise. */
  datatype SaveOutcome = Saved | StorageFailure | OtherFailure

  /** A batch either completes with its store and counts, or is cut short by a failure
      that escapes it. */
  datatype BatchResult =
    | Completed(db: Db, saved: nat, failed: nat)
    | Aborted

  /** The systems among `systems` whose save succeeds, in order. */
  function SavedOnes(systems: seq<StarSystem>, outcome: StarSystem -> SaveOutcome): (r: seq<StarSystem>)
    ensures |r| <= |systems|
    ensures forall x :: x in r <==> x in systems && outcome(x) == Saved
    ensures r == Filter((s: StarSystem) => outcome(s) == Saved, systems)
    decreases |systems|
  {
    if systems == [] then []
    else
      assert forall x :: x in systems <==> x == systems[0] || x in systems[1..];
      (if outcome(systems[0]) == Saved then [systems[0]] else []) + SavedOnes(systems[1..], outcome)
  }

  /** Saves each system of `systems` in turn. */
  function SaveAll(db: Db, systems: seq<StarSystem>): (r: Db)
    ensures r.systems.Keys == db.systems.Keys + NameSet(systems)
    ensures forall n :: n in db.systems && n !in NameSet(systems) ==> r.systems[n] == db.systems[n]
    decreases |systems|
  {
    if systems == [] then db
    else
      NameSetCons(systems);
      SaveAll(SaveSystem(db, systems[0]), systems[1..])
  }

  /** Attempts to save every system in order, counting successes and failures. A storage
      failure is counted and the batch moves on; any other failure escapes the batch unless
      `catchAll`, in which case it is counted as a failure too. A failed attempt leaves
      the store as it was. */
  function Batch(db: Db, systems: seq<StarSystem>, outcome: StarSystem -> SaveOutcome, catchAll: bool)
    : (r: BatchResult)
    ensures r.Completed? <==> catchAll || forall s :: s in systems ==> outcome(s) != OtherFailure
    ensures r.Completed? ==> r.saved + r.failed == |systems|
    ensures r.Completed? ==> r.saved == |SavedOnes(systems, outcome)|
    decreases |systems|
  {
    if systems == [] then Completed(db, 0, 0)
    else
      var s := systems[0];
      assert forall x :: x in systems <==> x == s || x in systems[1..];
      if outcome(s) == Saved then
        match Batch(SaveSystem(db, s), systems[1..], outcome, catchAll)
        case Completed(d, saved, failed) => Completed(d, saved + 1, failed)
        case Aborted => Aborted
      else if outcome(s) == OtherFailure && !catchAll then Aborted
      else
        match Batch(db, systems[1..], outcome, catchAll)
        case Completed(d, saved, failed) => Completed(d, saved, failed + 1)
        case Aborted => Aborted
  }

  /** A completed batch leaves the store as saving exactly the successful systems, in order. */
  lemma {:induction false} BatchSavesTheSaved(db: Db, systems: seq<StarSystem>, outcome: StarSystem -> SaveOutcome, catchAll: bool)
    ensures Batch(db, systems, outcome, catchAll).Completed? ==>
      Batch(db, systems, outcome, catchAll).db == SaveAll(db, SavedOnes(systems, outcome))
    decreases |systems|
  {
    if systems != [] {
      var s := systems[0];
      var rest := systems[1..];
      if outcome(s) == Saved {
        BatchSavesTheSaved(SaveSystem(db, s), rest, outcome, catchAll);
        assert SavedOnes(systems, outcome) == [s] + SavedOnes(rest, outcome);
        assert ([s] + SavedOnes(rest, outcome))[1..] == SavedOnes(rest, outcome);
      } else {
        BatchSavesTheSaved(db, rest, outcome, catchAll);
        assert SavedOnes(systems, outcome) == SavedOnes(rest, outcome);
      }
    }
  }

  /** The repository's batch save: storage failures are counted, anything else escapes. */
  function SaveBatch(db: Db, systems: seq<StarSystem>, outcome: StarSystem -> SaveOutcome): (r: BatchResult)
    ensures r.Completed? <==> forall s :: s in systems ==> outcome(s) != OtherFailure
    ensures r.Completed? ==> r.saved + r.failed == |systems|
    ensures r.Completed? ==> r.db.systems.Keys == db.systems.Keys + set s | s in systems && outcome(s) == Saved :: s.name
    ensures systems == [] ==> r == Completed(db, 0, 0)
  {
    var r := Batch(db, systems, outcome, false);
    var ok := SavedOnes(systems, outcome);
    BatchSavesTheSaved(db, systems, outcome, false);
    assert NameSet(ok) == set s | s in systems && outcome(s) == Saved :: s.name;
    r
  }

  /** With every attempt succeeding, a batch saves everything and fails nothing. */
  lemma {:induction false} AllSavedBatch(db: Db, systems: seq<StarSystem>, outcome: StarSystem -> SaveOutcome)
    requires forall s :: s in systems ==> outcome(s) == Saved
    ensures SaveBatch(db, systems, outcome) == Completed(SaveAll(db, systems), |systems|, 0)
  {
    SavedOnesAll(systems, outcome);
    BatchSavesTheSaved(db, systems, outcome, false);
  }

  lemma {:induction false} SavedOnesAll(systems: seq<StarSystem>, outcome: StarSystem -> SaveOutcome)
    requires forall s :: s in systems ==> outcome(s) == Saved
    ensures SavedOnes(systems, outcome) == systems
    decreases |systems|
  {
    if systems != [] {
      assert systems[0] in systems;
      assert forall s :: s in systems[1..] ==> s in systems;
      SavedOnesAll(systems[1..], outcome);
      assert [systems[0]] + systems[1..] == systems;
    }
  }
}

=== FILE: search.dfy ===
/** The search/filter engine: pure, order-preserving narrowing passes over an already
    loaded list of systems, and a case-insensitive name search. */
module Search {
  import opened Wrappers
  import opened Seqs
  import opened Text
  import opened StarSystems

  /** The spectral bucket of a system: the upper-cased first character of its spectral
      type, or nothing when the type is empty or "Unknown". */
  function Bucket(s: StarSystem): (b: Option<char>)
    ensures b.Some? <==> s.spectralType != "" && s.spectralType != "Unknown"
    ensures b.Some? ==> b.value == UpperChar(s.spectralType[0])
  {
    if s.spectralType != "" && s.spectralType != UnknownType
    then Some(UpperChar(s.spectralType[0])) else None
  }

  predicate WithinDistance(s: StarSystem, maxDistance: real) {
    0.0 < s.distanceLy <= maxDistance
  }

  /** The requested types, upper-cased, compared as strings against the one-letter
      bucket (so a request "GK" matches nothing). */
  predicate SpectralMatch(s: StarSystem, types: seq<string>) {
    Bucket(s).Some? && [Bucket(s).value] in (set t | t in types :: Upper(t))
  }

  predicate PlanetPresence(s: StarSystem, hasPlanets: bool) {
    HasPlanet(s) == hasPlanets
  }

  predicate AtLeastPlanets(s: StarSystem, minPlanets: int) {
    PlanetCount(s) >= minPlanets
  }

  /** Keeps the systems with 0 < distance <= `maxDistance`; the 0.0 "unknown distance"
      sentinel is always excluded. */
  function FilterByDistance(systems: seq<StarSystem>, maxDistance: real): (r: seq<StarSystem>)
    ensures forall x :: multiset(r)[x] == if 0.0 < x.distanceLy <= maxDistance then multiset(systems)[x] else 0
    ensures forall x :: x in r <==> x in systems && 0.0 < x.distanceLy <= maxDistance
    ensures forall x :: x in r ==> x.distanceLy != 0.0
    ensures IsSubseq(r, systems)
  {
    FilterMultiset(s => WithinDistance(s, maxDistance), systems);
    Filter(s => WithinDistance(s, maxDistance), systems)
  }

  function FilterBySpectralType(systems: seq<StarSystem>, types: seq<string>): (r: seq<StarSystem>)
    ensures forall x :: multiset(r)[x] == if SpectralMatch(x, types) then multiset(systems)[x] else 0
    ensures forall x :: x in r <==>
      && x in systems && x.spectralType != "" && x.spectralType != "Unknown"
      && exists t :: t in types && Upper(t) == [UpperChar(x.spectralType[0])]
    ensures IsSubseq(r, systems)
  {
    FilterMultiset(s => SpectralMatch(s, types), systems);
    Filter(s => SpectralMatch(s, types), systems)
  }

  function FilterByHasPlanets(systems: seq<StarSystem>, hasPlanets: bool): (r: seq<StarSystem>)
    ensures forall x :: multiset(r)[x] == if HasPlanet(x) == hasPlanets then multiset(systems)[x] else 0
    ensures forall x :: x in r <==> x in systems && (|x.planets| > 0) == hasPlanets
    ensures IsSubseq(r, systems)
  {
    FilterMultiset(s => PlanetPresence(s, hasPlanets), systems);
    Filter(s => PlanetPresence(s, hasPlanets), systems)
  }

  function FilterByMinPlanets(systems: seq<StarSystem>, minPlanets: int): (r: seq<StarSystem>)
    ensures forall x :: multiset(r)[x] == if |x.planets| >= minPlanets then multiset(systems)[x] else 0
    ensures forall x :: x in r <==> x in systems && |x.planets| >= minPlanets
    ensures IsSubseq(r, systems)
  {
    FilterMultiset(s => AtLeastPlanets(s, minPlanets), systems);
    Filter(s => AtLeastPlanets(s, minPlanets), systems)
  }

  /** `has_planets=True` and `has_planets=False` split the input into two disjoint parts. */
  lemma HasPlanetsPartition(systems: seq<StarSystem>)
    ensures |FilterByHasPlanets(systems, true)| + |FilterByHasPlanets(systems, false)| == |systems|
    ensures forall x :: !(x in FilterByHasPlanets(systems, true) && x in FilterByHasPlanets(systems, false))
  {
    FilterPartition(s => PlanetPresence(s, true), s => PlanetPresence(s, false), systems);
  }

  /** A minimum of zero (or less) keeps every system. */
  lemma MinPlanetsZeroKeepsAll(systems: seq<StarSystem>, minPlanets: int)
    requires minPlanets <= 0
    ensures FilterByMinPlanets(systems, minPlanets) == systems
  {
    FilterAll(s => AtLeastPlanets(s, minPlanets), systems);
  }

  /** The optional criteria of `filter_systems`; an absent one is no filter. */
  datatype Criteria = Criteria(
    maxDistance: Option<real>,
    spectralTypes: Option<seq<string>>,
    hasPlanets: Option<bool>,
    minPlanets: Option<int>)

  /** An empty list of spectral types counts as no spectral criterion. */
  predicate SpectralRequested(c: Criteria) {
    c.spectralTypes.Some? && c.spectralTypes.value != []
  }

  predicate NoCriteria(c: Criteria) {
    c.maxDistance.None? && !SpectralRequested(c) && c.hasPlanets.None? && c.minPlanets.None?
  }

  predicate MeetsDistance(c: Criteria, s: StarSystem) {
    c.maxDistance.Some? ==> WithinDistance(s, c.maxDistance.value)
  }

  predicate MeetsSpectral(c: Criteria, s: StarSystem) {
    SpectralRequested(c) ==> SpectralMatch(s, c.spectralTypes.value)
  }

  predicate MeetsPresence(c: Criteria, s: StarSystem) {
    c.hasPlanets.Some? ==> PlanetPresence(s, c.hasPlanets.value)
  }

  predicate MeetsMinimum(c: Criteria, s: StarSystem) {
    c.minPlanets.Some? ==> AtLeastPlanets(s, c.minPlanets.value)
  }

  /** A system passes when it meets every supplied criterion. */
  predicate Meets(c: Criteria, s: StarSystem) {
    MeetsDistance(c, s) && MeetsSpectral(c, s) && MeetsPresence(c, s) && MeetsMinimum(c, s)
  }

  /** One narrowing pass of `filter_systems`, skipped when its criterion is absent. */
  function DistanceStage(systems: seq<StarSystem>, c: Criteria): (r: seq<StarSystem>)
    ensures forall x :: multiset(r)[x] == if MeetsDistance(c, x) then multiset(systems)[x] else 0
    ensures IsSubseq(r, systems)
  {
    SubseqReflexive(systems);
    if c.maxDistance.Some? then FilterByDistance(systems, c.maxDistance.value) else systems
  }

  function SpectralStage(systems: seq<StarSystem>, c: Criteria): (r: seq<StarSystem>)
    ensures forall x :: multiset(r)[x] == if MeetsSpectral(c, x) then multiset(systems)[x] else 0
    ensures IsSubseq(r, systems)
  {
    SubseqReflexive(systems);
    if SpectralRequested(c) then FilterBySpectralType(systems, c.spectralTypes.value) else systems
  }

  function PresenceStage(systems: seq<StarSystem>, c: Criteria): (r: seq<StarSystem>)
    ensures forall x :: multiset(r)[x] == if MeetsPresence(c, x) then multiset(systems)[x] else 0
    ensures IsSubseq(r, systems)
  {
    SubseqReflexive(systems);
    if c.hasPlanets.Some? then FilterByHasPlanets(systems, c.hasPlanets.value) else systems
  }

  function MinimumStage(systems: seq<StarSystem>, c: Criteria): (r: seq<StarSystem>)
    ensures forall x :: multiset(r)[x] == if MeetsMinimum(c, x) then multiset(systems)[x] else 0
    ensures IsSubseq(r, systems)
  {
    SubseqReflexive(systems);
    if c.minPlanets.Some? then FilterByMinPlanets(systems, c.minPlanets.value) else systems
  }

  /** `filter_systems`: the supplied criteria applied as successive narrowing passes,
      distance, then spectral type, then planet presence, then planet count. */
  function FilterSystems(systems: seq<StarSystem>, c: Criteria): (r: seq<StarSystem>)
    ensures forall x :: multiset(r)[x] == if Meets(c, x) then multiset(systems)[x] else 0
    ensures forall x :: x in r <==> x in systems && Meets(c, x)
    ensures IsSubseq(r, systems)
    ensures NoCriteria(c) ==> r == systems
  {
    var r1 := DistanceStage(systems, c);
    var r2 := SpectralStage(r1, c);
    var r3 := PresenceStage(r2, c);
    var r4 := MinimumStage(r3, c);
    SubseqTransitive(r2, r1, systems);
    SubseqTransitive(r3, r2, systems);
    SubseqTransitive(r4, r3, systems);
    assert forall x :: x in r4 <==> multiset(r4)[x] > 0;
    assert forall x :: x in systems <==> multiset(systems)[x] > 0;
    r4
  }

  /** A name matches when its lower-cased form contains the lower-cased query. */
  predicate NameMatches(s: StarSystem, loweredQuery: string) {
    Contains(Lower(s.name), loweredQuery)
  }

  /** `search_by_name`: case-insensitive substring match, order kept. */
  function SearchByName(systems: seq<StarSystem>, query: string): (r: seq<StarSystem>)
    ensures forall x :: multiset(r)[x] == if Contains(Lower(x.name), Lower(query)) then multiset(systems)[x] else 0
    ensures forall x :: x in r <==> x in systems && exists i :: OccursAt(Lower(x.name), Lower(query), i)
    ensures IsSubseq(r, systems)
  {
    var q := Lower(query);
    forall x | x in systems ensures NameMatches(x, q) <==> exists i :: OccursAt(Lower(x.name), q, i) {
      ContainsIffOccurs(Lower(x.name), q);
    }
    FilterMultiset(s => NameMatches(s, q), systems);
    Filter(s => NameMatches(s, q), systems)
  }

  /** Queries that differ only in ASCII case find the same systems. */
  lemma SearchIgnoresQueryCase(systems: seq<StarSystem>, q1: string, q2: string)
    requires Lower(q1) == Lower(q2)
    ensures SearchByName(systems, q1) == SearchByName(systems, q2)
  {
  }

  /** The empty query finds every system. */
  lemma EmptyQueryFindsAll(systems: seq<StarSystem>)
    ensures SearchByName(systems, "") == systems
  {
    forall x | x in systems ensures NameMatches(x, Lower("")) {
      EmptyOccursEverywhere(Lower(x.name));
    }
    FilterAll(s => NameMatches(s, Lower("")), systems);
  }
}

=== FILE: seqs.dfy ===
/** Order-preserving filtering of sequences, the shape of every list comprehension
    `[x for x in xs if p(x)]` in the catalog's search code. */
module Seqs {

  /** `xs` can be obtained from `ys` by deleting elements, keeping the order of the rest. */
  ghost predicate IsSubseq<T>(xs: seq<T>, ys: seq<T>)
    decreases |ys|
  {
    if xs == [] then true
    else if ys == [] then false
    else (xs[0] == ys[0] && IsSubseq(xs[1..], ys[1..])) || IsSubseq(xs, ys[1..])
  }

  /** The elements of `s` satisfying `p`, in their original order. */
  function Filter<T(!new)>(p: T -> bool, s: seq<T>): (r: seq<T>)
    ensures |r| <= |s|
    ensures forall x :: x in r <==> x in s && p(x)
    ensures IsSubseq(r, s)
    decreases |s|
  {
    if s == [] then []
    else
      var rest := Filter(p, s[1..]);
      assert s == [s[0]] + s[1..];
      if p(s[0]) then
        var r := [s[0]] + rest;
        assert r[1..] == rest;
        r
      else
        rest
  }

  /** Filtering keeps every selected element as often as it occurs, and nothing else. */
  lemma {:induction false} FilterMultiset<T(!new)>(p: T -> bool, s: seq<T>)
    ensures forall x :: multiset(Filter(p, s))[x] == if p(x) then multiset(s)[x] else 0
    decreases |s|
  {
    if s != [] {
      FilterMultiset(p, s[1..]);
      assert s == [s[0]] + s[1..];
      assert multiset(s) == multiset{s[0]} + multiset(s[1..]);
    }
  }

  /** Two predicates that agree everywhere select the same elements. */
  lemma {:induction false} FilterCongruent<T(!new)>(p: T -> bool, q: T -> bool, s: seq<T>)
    requires forall x :: p(x) == q(x)
    ensures Filter(p, s) == Filter(q, s)
    decreases |s|
  {
    if s != [] {
      FilterCongruent(p, q, s[1..]);
    }
  }

  /** A predicate and its negation split a sequence: the two parts' lengths add up. */
  lemma FilterPartition<T(!new)>(p: T -> bool, q: T -> bool, s: seq<T>)
    requires forall x :: q(x) == !p(x)
    ensures |Filter(p, s)| + |Filter(q, s)| == |s|
    ensures forall x :: !(x in Filter(p, s) && x in Filter(q, s))
  {
    var a, b := Filter(p, s), Filter(q, s);
    FilterMultiset(p, s);
    FilterMultiset(q, s);
    assert multiset(a) + multiset(b) == multiset(s) by {
      forall x ensures (multiset(a) + multiset(b))[x] == multiset(s)[x] {
      }
    }
    assert |multiset(a) + multiset(b)| == |multiset(s)|;
  }

  /** Filtering with a predicate that holds of every element returns the input. */
  lemma {:induction false} FilterAll<T(!new)>(p: T -> bool, s: seq<T>)
    requires forall x :: x in s ==> p(x)
    ensures Filter(p, s) == s
    decreases |s|
  {
    if s != [] {
      FilterAll(p, s[1..]);
    }
  }

  /** Being a subsequence is transitive. */
  lemma {:induction false} SubseqTransitive<T>(a: seq<T>, b: seq<T>, c: seq<T>)
    requires IsSubseq(a, b) && IsSubseq(b, c)
    ensures IsSubseq(a, c)
    decreases |c|
  {
    if a != [] {
      assert b != [] && c != [];
      if b[0] == c[0] && IsSubseq(b[1..], c[1..]) {
        if a[0] == b[0] && IsSubseq(a[1..], b[1..]) {
          SubseqTransitive(a[1..], b[1..], c[1..]);
        } else {
          SubseqTransitive(a, b[1..], c[1..]);
        }
      } else {
        SubseqTransitive(a, b, c[1..]);
      }
    }
  }

  /** Every sequence is a subsequence of itself. */
  lemma {:induction false} SubseqReflexive<T>(s: seq<T>)
    ensures IsSubseq(s, s)
    decreases |s|
  {
    if s != [] {
      SubseqReflexive(s[1..]);
    }
  }

  /** Filtering distributes over concatenation. */
  lemma {:induction false} FilterAppend<T(!new)>(p: T -> bool, a: seq<T>, b: seq<T>)
    ensures Filter(p, a + b) == Filter(p, a) + Filter(p, b)
    decreases |a|
  {
    if a == [] {
      assert a + b == b;
    } else {
      assert (a + b)[1..] == a[1..] + b;
      FilterAppend(p, a[1..], b);
    }
  }

  /** Filtering one more element at the end adds it exactly when it is selected. */
  lemma FilterSnoc<T(!new)>(p: T -> bool, a: seq<T>, x: T)
    ensures Filter(p, a + [x]) == Filter(p, a) + (if p(x) then [x] else [])
  {
    FilterAppend(p, a, [x]);
    assert [x][1..] == [];
  }

  /** Filtering with a predicate that holds of no element gives the empty sequence. */
  lemma {:induction false} FilterNone<T(!new)>(p: T -> bool, s: seq<T>)
    requires forall x :: x in s ==> !p(x)
    ensures Filter(p, s) == []
    decreases |s|
  {
    if s != [] {
      assert forall x :: x in s[1..] ==> x in s;
      FilterNone(p, s[1..]);
    }
  }

  /** The front-to-back loop that keeps the elements satisfying `p`, as the source's
      list-building loops do. */
  method FilterLoop<T(!new)>(p: T -> bool, s: seq<T>) returns (r: seq<T>)
    ensures r == Filter(p, s)
  {
    r := [];
    var i := 0;
    while i < |s|
      invariant 0 <= i <= |s|
      invariant r == Filter(p, s[..i])
    {
      assert s[..i + 1] == s[..i] + [s[i]];
      FilterSnoc(p, s[..i], s[i]);
      if p(s[i]) {
        r := r + [s[i]];
      }
      i := i + 1;
    }
    assert s[..i] == s;
  }
}

=== FILE: star_system.dfy ===
/** The star-system record: a name, a spectral type, a distance in light years and an
    ordered list of planets. The older root-level `StarSystem` class is the same record
    with fields named `star_type` and `distance_from_earth`. */
module StarSystems {
  import opened Wrappers
  import opened Planets

  datatype StarSystem = StarSystem(
    name: string, spectralType: string, distanceLy: real, planets: seq<Planet>)

  /** The spectral type a system gets when none is given. */
  const UnknownType: string := "Unknown"

  /** A system built from its name alone: unknown type, distance 0.0 (the "unknown
      distance" sentinel) and a planet list of its own, initially empty. */
  function NewSystem(name: string): (s: StarSystem)
    ensures s.name == name && s.spectralType == "Unknown"
    ensures s.distanceLy == 0.0 && PlanetCount(s) == 0 && !HasPlanet(s)
  {
    StarSystem(name, UnknownType, 0.0, [])
  }

  /** `add_planet`: appends at the end, duplicates of a name included. */
  function AddPlanet(s: StarSystem, p: Planet): (r: StarSystem)
    ensures r.name == s.name && r.spectralType == s.spectralType && r.distanceLy == s.distanceLy
    ensures PlanetCount(r) == PlanetCount(s) + 1
    ensures r.planets[..|s.planets|] == s.planets && r.planets[|s.planets|] == p
  {
    s.(planets := s.planets + [p])
  }

  /** Adds every planet of `ps` in turn, as a loop of `add_planet` calls does. */
  function AddPlanets(s: StarSystem, ps: seq<Planet>): (r: StarSystem)
    ensures r.name == s.name && r.spectralType == s.spectralType && r.distanceLy == s.distanceLy
    ensures r.planets == s.planets + ps
    decreases |ps|
  {
    if ps == [] then s
    else
      var r := AddPlanets(AddPlanet(s, ps[0]), ps[1..]);
      assert s.planets + [ps[0]] + ps[1..] == s.planets + ps;
      r
  }

  function PlanetCount(s: StarSystem): nat {
    |s.planets|
  }

  predicate HasPlanet(s: StarSystem) {
    |s.planets| > 0
  }

  lemma HasPlanetIffCount(s: StarSystem)
    ensures HasPlanet(s) <==> PlanetCount(s) > 0
    ensures PlanetCount(s) == |s.planets|
  {
  }

  /** Two planets with the same name are both kept. */
  lemma DuplicateNamesKept(s: StarSystem, p: Planet, q: Planet)
    requires p.name == q.name
    ensures AddPlanet(AddPlanet(s, p), q).planets == s.planets + [p, q]
  {
  }

  /** The sum of the planet counts of `systems`. */
  function TotalPlanets(systems: seq<StarSystem>): nat
    decreases |systems|
  {
    if systems == [] then 0 else PlanetCount(systems[0]) + TotalPlanets(systems[1..])
  }

  lemma {:induction false} TotalPlanetsAppend(a: seq<StarSystem>, b: seq<StarSystem>)
    ensures TotalPlanets(a + b) == TotalPlanets(a) + TotalPlanets(b)
    decreases |a|
  {
    if a == [] {
      assert a + b == b;
    } else {
      assert (a + b)[1..] == a[1..] + b;
      TotalPlanetsAppend(a[1..], b);
    }
  }

  /** Replacing one system changes the total by the difference of the two counts. */
  lemma {:induction false} TotalPlanetsUpdate(systems: seq<StarSystem>, i: nat, s: StarSystem)
    requires i < |systems|
    ensures TotalPlanets(systems[i := s]) + PlanetCount(systems[i])
         == TotalPlanets(systems) + PlanetCount(s)
    decreases |systems|
  {
    if i > 0 {
      assert systems[i := s][1..] == systems[1..][i - 1 := s];
      TotalPlanetsUpdate(systems[1..], i - 1, s);
    }
  }

  /** The set of names of `systems`. */
  function NameSet(systems: seq<StarSystem>): (names: set<string>)
    ensures forall n :: n in names <==> exists i :: 0 <= i < |systems| && systems[i].name == n
  {
    set s | s in systems :: s.name
  }

  lemma NameSetCons(systems: seq<StarSystem>)
    requires systems != []
    ensures NameSet(systems) == {systems[0].name} + NameSet(systems[1..])
  {
    assert forall x :: x in systems <==> x == systems[0] || x in systems[1..];
  }

  /** The structured-record form of a system (`to_dict`). */
  datatype SystemRecord = SystemRecord(
    name: string, spectralType: string, distanceLy: real, planetCount: int,
    planets: seq<PlanetRecord>)

  function ToSystemRecord(s: StarSystem): (d: SystemRecord)
    ensures d.name == s.name && d.spectralType == s.spectralType && d.distanceLy == s.distanceLy
    ensures d.planetCount == |d.planets| == PlanetCount(s)
    ensures forall i :: 0 <= i < |d.planets| ==> FromRecord(d.planets[i]) == s.planets[i]
    ensures forall i :: 0 <= i < |d.planets| ==> ParseLabel(d.planets[i].classification) == Some(Classify(s.planets[i]))
  {
    SystemRecord(s.name, s.spectralType, s.distanceLy, PlanetCount(s),
                 seq(|s.planets|, i requires 0 <= i < |s.planets| => Planets.ToRecord(s.planets[i])))
  }

  function FromSystemRecord(d: SystemRecord): StarSystem {
    StarSystem(d.name, d.spectralType, d.distanceLy,
               seq(|d.planets|, i requires 0 <= i < |d.planets| => Planets.FromRecord(d.planets[i])))
  }

  lemma RecordRoundTrip(s: StarSystem)
    ensures FromSystemRecord(ToSystemRecord(s)) == s
  {
    assert FromSystemRecord(ToSystemRecord(s)).planets == s.planets;
  }
}

=== FILE: statistics.dfy ===
/** Aggregate statistics over a list of systems (`get_statistics`). */
module Statistics {
  import opened Wrappers
  import opened Seqs
  import opened Planets
  import opened StarSystems
  import opened Search

  /** One entry of the spectral distribution: a bucket letter and how many systems fall in it. */
  datatype BucketCount = BucketCount(letter: char, count: nat)

  /** The statistics record. `avgPlanetsPerSystem` is `None` for an empty input, where the
      source's dictionary has no such key; the distribution lists its letters in the order
      they were first met, as the source's dictionary does. */
  datatype Stats = Stats(
    totalSystems: nat,
    systemsWithPlanets: nat,
    totalPlanets: nat,
    avgDistance: real,
    avgPlanetsPerSystem: Option<real>,
    distribution: seq<BucketCount>)

  function Letters(d: seq<BucketCount>): (r: seq<char>)
    ensures |r| == |d|
  {
    seq(|d|, i requires 0 <= i < |d| => d[i].letter)
  }

  ghost predicate Distinct(cs: seq<char>) {
    forall i, j :: 0 <= i < j < |cs| ==> cs[i] != cs[j]
  }

  /** The count recorded for `e`, or 0 when `e` has no entry (`dict.get(e, 0)`). */
  function CountOf(d: seq<BucketCount>, e: char): nat
    decreases |d|
  {
    if d == [] then 0 else if d[0].letter == e then d[0].count else CountOf(d[1..], e)
  }

  function SumCounts(d: seq<BucketCount>): nat
    decreases |d|
  {
    if d == [] then 0 else d[0].count + SumCounts(d[1..])
  }

  ghost predicate AllPositive(d: seq<BucketCount>) {
    forall i :: 0 <= i < |d| ==> d[i].count > 0
  }

  lemma DistinctCons(c: char, cs: seq<char>)
    requires c !in cs && Distinct(cs)
    ensures Distinct([c] + cs)
  {
    forall i, j | 0 <= i < j < |[c] + cs| ensures ([c] + cs)[i] != ([c] + cs)[j] {
      if i > 0 {
        assert ([c] + cs)[i] == cs[i - 1];
      }
    }
  }

  lemma DistinctUncons(cs: seq<char>)
    requires cs != [] && Distinct(cs)
    ensures cs[0] !in cs[1..] && Distinct(cs[1..])
  {
    forall i, j | 0 <= i < j < |cs[1..]| ensures cs[1..][i] != cs[1..][j] {
      assert cs[1..][i] == cs[i + 1] && cs[1..][j] == cs[j + 1];
    }
  }

  /** `r` is `d` after one more system of bucket `c`: letters stay distinct and counts
      positive, a new letter goes to the end, and only `c`'s count grows, by one. */
  ghost predicate Bumped(d: seq<BucketCount>, c: char, r: seq<BucketCount>) {
    && Distinct(Letters(r)) && AllPositive(r)
    && Letters(r) == (if c in Letters(d) then Letters(d) else Letters(d) + [c])
    && (forall e :: CountOf(r, e) == CountOf(d, e) + (if e == c then 1 else 0))
    && SumCounts(r) == SumCounts(d) + 1
  }

  lemma BumpHit(d: seq<BucketCount>, c: char)
    requires d != [] && d[0].letter == c
    requires Distinct(Letters(d)) && AllPositive(d)
    ensures Bumped(d, c, [BucketCount(c, d[0].count + 1)] + d[1..])
  {
    var r := [BucketCount(c, d[0].count + 1)] + d[1..];
    assert r[1..] == d[1..];
    assert Letters(r) == Letters(d);
    assert Letters(d)[0] == c;
  }

  lemma BumpMissLetters(d: seq<BucketCount>, c: char, rest: seq<BucketCount>)
    requires d != [] && d[0].letter != c && Distinct(Letters(d))
    requires Distinct(Letters(rest))
    requires Letters(rest) == (if c in Letters(d[1..]) then Letters(d[1..]) else Letters(d[1..]) + [c])
    ensures Distinct(Letters([d[0]] + rest))
    ensures Letters([d[0]] + rest) == (if c in Letters(d) then Letters(d) else Letters(d) + [c])
  {
    var r := [d[0]] + rest;
    assert Letters(d[1..]) == Letters(d)[1..];
    assert Letters(d) == [d[0].letter] + Letters(d[1..]);
    DistinctUncons(Letters(d));
    assert r[1..] == rest;
    assert Letters(r) == [d[0].letter] + Letters(rest);
    DistinctCons(d[0].letter, Letters(rest));
    assert c in Letters(d) <==> c in Letters(d[1..]);
  }

  lemma BumpMissCounts(d: seq<BucketCount>, c: char, rest: seq<BucketCount>)
    requires d != [] && d[0].letter != c && AllPositive(d) && AllPositive(rest)
    requires forall e :: CountOf(rest, e) == CountOf(d[1..], e) + (if e == c then 1 else 0)
    requires SumCounts(rest) == SumCounts(d[1..]) + 1
    ensures AllPositive([d[0]] + rest)
    ensures forall e :: CountOf([d[0]] + rest, e) == CountOf(d, e) + (if e == c then 1 else 0)
    ensures SumCounts([d[0]] + rest) == SumCounts(d) + 1
  {
    var r := [d[0]] + rest;
    assert r[1..] == rest;
    forall i | 0 <= i < |r| ensures r[i].count > 0 {
      if i > 0 { assert r[i] == rest[i - 1]; }
    }
    forall e ensures CountOf(r, e) == CountOf(d, e) + (if e == c then 1 else 0) {
      assert CountOf(r, e) == if d[0].letter == e then d[0].count else CountOf(rest, e);
    }
  }

  lemma BumpMiss(d: seq<BucketCount>, c: char, rest: seq<BucketCount>)
    requires d != [] && d[0].letter != c
    requires Distinct(Letters(d)) && AllPositive(d)
    requires Bumped(d[1..], c, rest)
    ensures Bumped(d, c, [d[0]] + rest)
  {
    BumpMissLetters(d, c, rest);
    BumpMissCounts(d, c, rest);
  }

  /** `dist[c] = dist.get(c, 0) + 1`: increments the entry for `c`, or appends a new one. */
  function Bump(d: seq<BucketCount>, c: char): (r: seq<BucketCount>)
    requires Distinct(Letters(d)) && AllPositive(d)
    ensures Distinct(Letters(r)) && AllPositive(r)
    ensures Letters(r) == if c in Letters(d) then Letters(d) else Letters(d) + [c]
    ensures forall e :: CountOf(r, e) == CountOf(d, e) + (if e == c then 1 else 0)
    ensures SumCounts(r) == SumCounts(d) + 1
    decreases |d|
  {
    if d == [] then
      var r := [BucketCount(c, 1)];
      assert Letters(r) == [c];
      r
    else if d[0].letter == c then
      BumpHit(d, c);
      [BucketCount(c, d[0].count + 1)] + d[1..]
    else
      assert Letters(d[1..]) == Letters(d)[1..];
      DistinctUncons(Letters(d));
      var rest := Bump(d[1..], c);
      BumpMiss(d, c, rest);
      [d[0]] + rest
  }

  /** In a distribution whose counts are positive and whose letters are distinct, a
      letter is listed exactly when its count is positive. */
  lemma {:induction false} ListedIffCounted(d: seq<BucketCount>, e: char)
    requires Distinct(Letters(d)) && AllPositive(d)
    ensures e in Letters(d) <==> CountOf(d, e) > 0
    decreases |d|
  {
    if d != [] {
      assert Letters(d[1..]) == Letters(d)[1..];
      DistinctUncons(Letters(d));
      ListedIffCounted(d[1..], e);
    }
  }

  /** The number of systems among `systems` whose bucket is `c`. */
  function BucketSize(systems: seq<StarSystem>, c: char): nat
    decreases |systems|
  {
    if systems == [] then 0
    else
      BucketSize(systems[..|systems| - 1], c)
      + (if Bucket(systems[|systems| - 1]) == Some(c) then 1 else 0)
  }

  /** The number of systems with a non-empty spectral type other than "Unknown". */
  function KnownCount(systems: seq<StarSystem>): nat
    decreases |systems|
  {
    if systems == [] then 0
    else KnownCount(systems[..|systems| - 1]) + (if Bucket(systems[|systems| - 1]).Some? then 1 else 0)
  }

  /** The spectral distribution, built by visiting the systems in order. */
  function Distribution(systems: seq<StarSystem>): (d: seq<BucketCount>)
    ensures Distinct(Letters(d)) && AllPositive(d)
    ensures forall e :: CountOf(d, e) == BucketSize(systems, e)
    ensures SumCounts(d) == KnownCount(systems)
    decreases |systems|
  {
    if systems == [] then []
    else
      var prefix := Distribution(systems[..|systems| - 1]);
      match Bucket(systems[|systems| - 1])
      case None => prefix
      case Some(c) => Bump(prefix, c)
  }

  /** A letter appears in the distribution exactly when some system falls in its bucket. */
  lemma DistributionLetters(systems: seq<StarSystem>, e: char)
    ensures e in Letters(Distribution(systems)) <==> BucketSize(systems, e) > 0
  {
    ListedIffCounted(Distribution(systems), e);
  }

  /** The position of the first system in bucket `c`, or `|systems|` when there is none. */
  function FirstIn(systems: seq<StarSystem>, c: char): (i: nat)
    ensures i <= |systems|
    decreases |systems|
  {
    if systems == [] then 0
    else
      var prefix := systems[..|systems| - 1];
      var f := FirstIn(prefix, c);
      if f < |prefix| then f
      else if Bucket(systems[|systems| - 1]) == Some(c) then |prefix|
      else |systems|
  }

  /** Some system falls in bucket `c` exactly when its first one lies inside the list. */
  lemma {:induction false} FirstInIffCounted(systems: seq<StarSystem>, c: char)
    ensures FirstIn(systems, c) < |systems| <==> BucketSize(systems, c) > 0
    decreases |systems|
  {
    if systems != [] {
      FirstInIffCounted(systems[..|systems| - 1], c);
    }
  }

  /** Every letter of `ls` has a system in its bucket, and the letters come in the order
      of their first systems. */
  ghost predicate InFirstSeenOrder(systems: seq<StarSystem>, ls: seq<char>) {
    && (forall i :: 0 <= i < |ls| ==> FirstIn(systems, ls[i]) < |systems|)
    && (forall i, j :: 0 <= i < j < |ls| ==> FirstIn(systems, ls[i]) < FirstIn(systems, ls[j]))
  }

  /** The distribution lists its letters in order of first appearance: a letter listed
      earlier has its first system earlier in the input. */
  lemma {:induction false} DistributionInFirstSeenOrder(systems: seq<StarSystem>)
    ensures InFirstSeenOrder(systems, Letters(Distribution(systems)))
    decreases |systems|
  {
    if systems != [] {
      var prefix := systems[..|systems| - 1];
      DistributionInFirstSeenOrder(prefix);
      var before := Letters(Distribution(prefix));
      assert InFirstSeenOrder(prefix, before);
      forall i | 0 <= i < |before| ensures FirstIn(systems, before[i]) == FirstIn(prefix, before[i]) {
        FirstInKept(systems, before[i]);
      }
      match Bucket(systems[|systems| - 1])
      case None =>
        assert Letters(Distribution(systems)) == before;
      case Some(c) =>
        if c in before {
          assert Letters(Distribution(systems)) == before;
        } else {
          assert Letters(Distribution(systems)) == before + [c];
          DistributionLetters(prefix, c);
          FirstInIffCounted(prefix, c);
          assert FirstIn(systems, c) == |prefix|;
        }
    }
  }

  /** Extending the list keeps a first position that was already inside it. */
  lemma FirstInKept(systems: seq<StarSystem>, e: char)
    requires systems != [] && FirstIn(systems[..|systems| - 1], e) < |systems| - 1
    ensures FirstIn(systems, e) == FirstIn(systems[..|systems| - 1], e)
  {
  }

  /** Systems whose distance is positive: the only ones the average distance uses. */
  function KnownDistances(systems: seq<StarSystem>): (r: seq<StarSystem>)
    ensures forall x :: x in r <==> x in systems && x.distanceLy > 0.0
    ensures forall x :: multiset(r)[x] == if x.distanceLy > 0.0 then multiset(systems)[x] else 0
    ensures IsSubseq(r, systems)
  {
    FilterMultiset((s: StarSystem) => s.distanceLy > 0.0, systems);
    Filter((s: StarSystem) => s.distanceLy > 0.0, systems)
  }

  lemma KnownDistancesCons(systems: seq<StarSystem>)
    requires systems != []
    ensures KnownDistances(systems)
      == (if systems[0].distanceLy > 0.0 then [systems[0]] else []) + KnownDistances(systems[1..])
  {
  }

  function SumDistances(systems: seq<StarSystem>): real
    decreases |systems|
  {
    if systems == [] then 0.0 else systems[0].distanceLy + SumDistances(systems[1..])
  }

  /** `n` copies of `x` added up. */
  function Repeat(n: nat, x: real): real {
    if n == 0 then 0.0 else x + Repeat(n - 1, x)
  }

  lemma {:induction false} RepeatIsProduct(n: nat, x: real)
    ensures Repeat(n, x) == n as real * x
  {
    if n > 0 {
      RepeatIsProduct(n - 1, x);
      assert n as real * x == (n - 1) as real * x + x;
    }
  }

  lemma {:induction false} SumWithin(systems: seq<StarSystem>, lo: real, hi: real)
    requires forall i :: 0 <= i < |systems| ==> lo <= systems[i].distanceLy <= hi
    ensures Repeat(|systems|, lo) <= SumDistances(systems) <= Repeat(|systems|, hi)
    decreases |systems|
  {
    if systems != [] {
      assert lo <= systems[0].distanceLy <= hi;
      SumWithin(systems[1..], lo, hi);
    }
  }

  lemma {:induction false} SumOfPositives(systems: seq<StarSystem>)
    requires systems != []
    requires forall x :: x in systems ==> x.distanceLy > 0.0
    ensures SumDistances(systems) > 0.0
    decreases |systems|
  {
    assert systems[0] in systems;
    if |systems| > 1 {
      assert forall x :: x in systems[1..] ==> x in systems;
      SumOfPositives(systems[1..]);
    } else {
      assert systems[1..] == [];
    }
  }

  /** Every system with planets holds at least one, so there are at least as many planets
      as systems with planets. */
  lemma {:induction false} PlanetsCoverPlanetarySystems(systems: seq<StarSystem>)
    ensures |FilterByHasPlanets(systems, true)| <= TotalPlanets(systems)
    decreases |systems|
  {
    if systems != [] {
      PlanetsCoverPlanetarySystems(systems[1..]);
    }
  }

  /** The mean of the positive distances, or 0.0 when there is none. */
  function AverageDistance(systems: seq<StarSystem>): (avg: real)
    ensures (exists x :: x in systems && x.distanceLy > 0.0) ==> avg > 0.0
    ensures (forall x :: x in systems ==> x.distanceLy <= 0.0) ==> avg == 0.0
  {
    var known := KnownDistances(systems);
    if known == [] then 0.0
    else
      PositiveAverage(known);
      SumDistances(known) / |known| as real
  }

  lemma PositiveAverage(known: seq<StarSystem>)
    requires known != []
    requires forall x :: x in known ==> x.distanceLy > 0.0
    ensures SumDistances(known) / |known| as real > 0.0
  {
    SumOfPositives(known);
    QuotientPositive(SumDistances(known), |known| as real);
  }

  lemma QuotientPositive(total: real, n: real)
    requires total > 0.0 && n > 0.0
    ensures total / n > 0.0
  {
    var q := total / n;
    assert q * n == total;
  }

  lemma QuotientWithin(total: real, n: real, lo: real, hi: real)
    requires n > 0.0 && n * lo <= total <= n * hi
    ensures lo <= total / n <= hi
  {
    var q := total / n;
    assert q * n == total;
    assert (q - lo) * n >= 0.0;
    assert (hi - q) * n >= 0.0;
  }

  /** The average distance lies within any bounds that hold for every positive distance. */
  lemma AverageDistanceWithin(systems: seq<StarSystem>, lo: real, hi: real)
    requires exists x :: x in systems && x.distanceLy > 0.0
    requires forall x :: x in systems && x.distanceLy > 0.0 ==> lo <= x.distanceLy <= hi
    ensures lo <= AverageDistance(systems) <= hi
  {
    var known := KnownDistances(systems);
    var x :| x in systems && x.distanceLy > 0.0;
    assert x in known;
    assert forall i :: 0 <= i < |known| ==> known[i] in known;
    MeanWithin(known, lo, hi);
  }

  lemma MeanWithin(known: seq<StarSystem>, lo: real, hi: real)
    requires known != []
    requires forall i :: 0 <= i < |known| ==> lo <= known[i].distanceLy <= hi
    ensures lo <= SumDistances(known) / |known| as real <= hi
  {
    SumWithin(known, lo, hi);
    RepeatIsProduct(|known|, lo);
    RepeatIsProduct(|known|, hi);
    QuotientWithin(SumDistances(known), |known| as real, lo, hi);
  }

  /** `get_statistics`. */
  function GetStatistics(systems: seq<StarSystem>): (r: Stats)
    ensures systems == [] ==> r == Stats(0, 0, 0, 0.0, None, [])
    ensures systems != [] ==> r.totalSystems == |systems|
    ensures systems != [] ==> r.avgPlanetsPerSystem == Some(r.totalPlanets as real / |systems| as real)
    ensures systems != [] ==> r.avgDistance == AverageDistance(systems)
    ensures r.systemsWithPlanets == |FilterByHasPlanets(systems, true)| <= r.totalSystems
    ensures r.systemsWithPlanets <= r.totalPlanets == TotalPlanets(systems)
    ensures Distinct(Letters(r.distribution))
    ensures forall e :: CountOf(r.distribution, e) == BucketSize(systems, e)
    ensures SumCounts(r.distribution) == KnownCount(systems)
  {
    if systems == [] then Stats(0, 0, 0, 0.0, None, [])
    else
      var total := TotalPlanets(systems);
      PlanetsCoverPlanetarySystems(systems);
      Stats(|systems|, |FilterByHasPlanets(systems, true)|, total, AverageDistance(systems),
            Some(total as real / |systems| as real), Distribution(systems))
  }

  /** Three systems: A ("G2V", 10 ly, one planet), B ("K5V", 20 ly, two planets) and
      C ("M5V", 0 ly, no planets). C's unknown distance is left out of the average, but
      its spectral type is known, so the distribution counts one "M" system beside "G"
      and "K". */
  lemma ThreeSystemBuckets(p: Planet)
    ensures var a := StarSystem("A", "G2V", 10.0, [p]);
            var b := StarSystem("B", "K5V", 20.0, [p, p]);
            var c := StarSystem("C", "M5V", 0.0, []);
            var d := GetStatistics([a, b, c]).distribution;
            CountOf(d, 'G') == 1 && CountOf(d, 'K') == 1 && CountOf(d, 'M') == 1 && SumCounts(d) == 3
  {
    var a := StarSystem("A", "G2V", 10.0, [p]);
    var b := StarSystem("B", "K5V", 20.0, [p, p]);
    var c := StarSystem("C", "M5V", 0.0, []);
    var sys := [a, b, c];
    assert sys[..2] == [a, b] && [a, b][..1] == [a] && [a][..0] == [];
    assert Bucket(a) == Some('G') && Bucket(b) == Some('K') && Bucket(c) == Some('M');
    assert BucketSize([a], 'G') == 1 && BucketSize([a], 'K') == 0 && BucketSize([a], 'M') == 0;
    assert BucketSize([a, b], 'G') == 1 && BucketSize([a, b], 'K') == 1 && BucketSize([a, b], 'M') == 0;
    assert KnownCount([a]) == 1 && KnownCount([a, b]) == 2;
  }

  /** Four systems of types "G2V", "G5V", "K3V" and "M5V": two land in bucket "G" and one
      each in "K" and "M". */
  lemma FourSystemBuckets()
    ensures var sys := [StarSystem("G Star 1", "G2V", 10.0, []), StarSystem("G Star 2", "G5V", 15.0, []),
                        StarSystem("K Star", "K3V", 20.0, []), StarSystem("M Star", "M5V", 25.0, [])];
            var d := GetStatistics(sys).distribution;
            CountOf(d, 'G') == 2 && CountOf(d, 'K') == 1 && CountOf(d, 'M') == 1 && SumCounts(d) == 4
  {
    FourSystemSizes();
  }

  /** The bucket sizes of the four systems above, counted system by system. */
  lemma FourSystemSizes()
    ensures var sys := [StarSystem("G Star 1", "G2V", 10.0, []), StarSystem("G Star 2", "G5V", 15.0, []),
                        StarSystem("K Star", "K3V", 20.0, []), StarSystem("M Star", "M5V", 25.0, [])];
            BucketSize(sys, 'G') == 2 && BucketSize(sys, 'K') == 1 && BucketSize(sys, 'M') == 1
            && KnownCount(sys) == 4
  {
    var a, b := StarSystem("G Star 1", "G2V", 10.0, []), StarSystem("G Star 2", "G5V", 15.0, []);
    var c, e := StarSystem("K Star", "K3V", 20.0, []), StarSystem("M Star", "M5V", 25.0, []);
    var sys := [a, b, c, e];
    assert sys[..3] == [a, b, c] && [a, b, c][..2] == [a, b] && [a, b][..1] == [a] && [a][..0] == [];
    assert Bucket(a) == Some('G') && Bucket(b) == Some('G') && Bucket(c) == Some('K') && Bucket(e) == Some('M');
    assert BucketSize([a], 'G') == 1 && BucketSize([a], 'K') == 0 && BucketSize([a], 'M') == 0;
    assert BucketSize([a, b], 'G') == 2 && BucketSize([a, b], 'K') == 0 && BucketSize([a, b], 'M') == 0;
    assert BucketSize([a, b, c], 'G') == 2 && BucketSize([a, b, c], 'K') == 1 && BucketSize([a, b, c], 'M') == 0;
    assert KnownCount([a]) == 1 && KnownCount([a, b]) == 2 && KnownCount([a, b, c]) == 3;
  }

  /** The same three systems hold three planets. */
  lemma ThreeSystemCounts(p: Planet)
    ensures var a := StarSystem("A", "G2V", 10.0, [p]);
            var b := StarSystem("B", "K5V", 20.0, [p, p]);
            var c := StarSystem("C", "M5V", 0.0, []);
            TotalPlanets([a, b, c]) == 3
  {
    var a := StarSystem("A", "G2V", 10.0, [p]);
    var b := StarSystem("B", "K5V", 20.0, [p, p]);
    var c := StarSystem("C", "M5V", 0.0, []);
    var sys := [a, b, c];
    assert sys[1..] == [b, c] && [b, c][1..] == [c] && [c][1..] == [];
    assert TotalPlanets([c]) == 0;
    assert TotalPlanets([b, c]) == 2;
  }

  /** The average distance of the same three systems is 15.0: C's 0.0 is excluded. */
  lemma ThreeSystemAverage(p: Planet)
    ensures var a := StarSystem("A", "G2V", 10.0, [p]);
            var b := StarSystem("B", "K5V", 20.0, [p, p]);
            var c := StarSystem("C", "M5V", 0.0, []);
            AverageDistance([a, b, c]) == 15.0
  {
    var a := StarSystem("A", "G2V", 10.0, [p]);
    var b := StarSystem("B", "K5V", 20.0, [p, p]);
    var c := StarSystem("C", "M5V", 0.0, []);
    ThreeSystemKnown(a, b, c);
    assert [a, b][1..] == [b] && [b][1..] == [];
    assert SumDistances([b]) == 20.0;
    assert SumDistances([a, b]) == 30.0;
  }

  /** Of three systems, the two with positive distances are the known ones, in order. */
  lemma ThreeSystemKnown(a: StarSystem, b: StarSystem, c: StarSystem)
    requires a.distanceLy > 0.0 && b.distanceLy > 0.0 && c.distanceLy <= 0.0
    ensures KnownDistances([a, b, c]) == [a, b]
  {
    var sys := [a, b, c];
    assert sys[1..] == [b, c] && [b, c][1..] == [c] && [c][1..] == [];
    KnownDistancesCons(sys);
    KnownDistancesCons([b, c]);
    KnownDistancesCons([c]);
  }
}

=== FILE: store.dfy ===
/** The persisted state, reduced to two maps: system rows keyed by name, and planet rows
    keyed by (planet name, system name). A cell is `None` where the table holds NULL. */
module Store {
  import opened Wrappers
  import opened Planets
  import opened StarSystems

  datatype SystemRow = SystemRow(spectralType: Option<string>, distanceLy: Option<real>)

  datatype PlanetKey = PlanetKey(name: string, systemName: string)

  datatype PlanetRow = PlanetRow(mass: Option<real>, radius: Option<real>, orbitDistance: Option<real>)

  datatype Db = Db(systems: map<string, SystemRow>, planets: map<PlanetKey, PlanetRow>)

  const EmptyDb: Db := Db(map[], map[])

  /** The row a planet is written as. */
  function RowOf(p: Planet): PlanetRow {
    PlanetRow(Some(p.mass), Some(p.radius), Some(p.orbitDistance))
  }

  /** `value or "Unknown"`: NULL and the empty string both read back as "Unknown". */
  function LoadText(v: Option<string>): (r: string)
    ensures r != ""
    ensures v.Some? && v.value != "" ==> r == v.value
    ensures !(v.Some? && v.value != "") ==> r == UnknownType
  {
    match v
    case Some(t) => if t == "" then UnknownType else t
    case None => UnknownType
  }

  /** `float(value) if value else 0.0`: NULL reads back as 0.0; every stored number,
      0.0 included, reads back as itself. */
  function LoadNumber(v: Option<real>): (r: real)
    ensures v.Some? ==> r == v.value
    ensures v.None? ==> r == 0.0
  {
    match v
    case Some(x) => x
    case None => 0.0
  }

  function LoadPlanet(k: PlanetKey, row: PlanetRow): Planet {
    Planet(k.name, LoadNumber(row.mass), LoadNumber(row.radius), LoadNumber(row.orbitDistance))
  }

  /** A planet written and read back is the same planet. */
  lemma LoadWrittenPlanet(p: Planet, systemName: string)
    ensures LoadPlanet(PlanetKey(p.name, systemName), RowOf(p)) == p
  {
  }

  /** The last planet of `ps` named `n`: the one whose values survive a sequence of upserts. */
  function LastNamed(ps: seq<Planet>, n: string): (r: Option<Planet>)
    ensures r.Some? <==> exists p :: p in ps && p.name == n
    ensures r.Some? ==> r.value in ps && r.value.name == n
    ensures r.Some? ==> exists i :: 0 <= i < |ps| && ps[i] == r.value && NoneNamedAfter(ps, i, n)
    decreases |ps|
  {
    if ps == [] then None
    else
      var rest := LastNamed(ps[1..], n);
      assert forall p :: p in ps <==> p == ps[0] || p in ps[1..];
      if rest.Some? then
        assert exists i :: 0 <= i < |ps| && ps[i] == rest.value && NoneNamedAfter(ps, i, n) by {
          var i :| 0 <= i < |ps[1..]| && ps[1..][i] == rest.value && NoneNamedAfter(ps[1..], i, n);
          NoneNamedAfterCons(ps, i, n);
        }
        rest
      else if ps[0].name == n then
        assert NoneNamedAfter(ps, 0, n) by {
          forall j | 0 < j < |ps| ensures ps[j].name != n {
            assert ps[j] in ps[1..];
          }
        }
        Some(ps[0])
      else None
  }

  /** No planet after position `i` of `ps` is named `n`. */
  ghost predicate NoneNamedAfter(ps: seq<Planet>, i: int, n: string) {
    forall j :: 0 <= j < |ps| && i < j ==> ps[j].name != n
  }

  lemma NoneNamedAfterCons(ps: seq<Planet>, i: int, n: string)
    requires ps != [] && 0 <= i < |ps[1..]|
    requires NoneNamedAfter(ps[1..], i, n)
    ensures NoneNamedAfter(ps, i + 1, n)
  {
    forall j | i + 1 < j < |ps| ensures ps[j].name != n {
      assert ps[j] == ps[1..][j - 1];
    }
  }

  /** When names are distinct, the last planet with a name is the only one. */
  lemma {:induction false} LastNamedDistinct(ps: seq<Planet>, p: Planet)
    requires forall i, j :: 0 <= i < j < |ps| ==> ps[i].name != ps[j].name
    requires p in ps
    ensures LastNamed(ps, p.name) == Some(p)
    decreases |ps|
  {
    if p != ps[0] {
      LastNamedDistinct(ps[1..], p);
    } else {
      assert forall q :: q in ps[1..] ==> q.name != p.name by {
        forall q | q in ps[1..] ensures q.name != p.name {
          var j :| 0 <= j < |ps[1..]| && ps[1..][j] == q;
          assert ps[j + 1] == q;
        }
      }
    }
  }

  /** The keys the planets of `ps` are stored under for system `systemName`. */
  function KeysFor(ps: seq<Planet>, systemName: string): set<PlanetKey> {
    set p | p in ps :: PlanetKey(p.name, systemName)
  }

  lemma KeysForSystem(ps: seq<Planet>, systemName: string, k: PlanetKey)
    requires k in KeysFor(ps, systemName)
    ensures k.systemName == systemName
  {
  }

  lemma KeysForCons(ps: seq<Planet>, systemName: string)
    requires ps != []
    ensures KeysFor(ps, systemName) == {PlanetKey(ps[0].name, systemName)} + KeysFor(ps[1..], systemName)
  {
    assert forall p :: p in ps <==> p == ps[0] || p in ps[1..];
  }

  /** Upserts each planet in turn under (planet name, `systemName`): an existing row has
      its numbers overwritten, a missing one is inserted, nothing is removed. */
  function UpsertPlanets(m: map<PlanetKey, PlanetRow>, systemName: string, ps: seq<Planet>)
    : (r: map<PlanetKey, PlanetRow>)
    ensures r.Keys == m.Keys + KeysFor(ps, systemName)
    ensures forall k :: k in r ==>
      r[k] == if k.systemName == systemName && LastNamed(ps, k.name).Some?
              then RowOf(LastNamed(ps, k.name).value) else m[k]
    decreases |ps|
  {
    if ps == [] then m
    else
      var m' := m[PlanetKey(ps[0].name, systemName) := RowOf(ps[0])];
      var r := UpsertPlanets(m', systemName, ps[1..]);
      KeysForCons(ps, systemName);
      r
  }

  /** Each saved planet's key ends up holding the last same-named planet's row. */
  lemma UpsertPlanetsSaved(m: map<PlanetKey, PlanetRow>, systemName: string, ps: seq<Planet>, p: Planet)
    requires p in ps
    ensures LastNamed(ps, p.name).Some?
    ensures PlanetKey(p.name, systemName) in UpsertPlanets(m, systemName, ps)
    ensures UpsertPlanets(m, systemName, ps)[PlanetKey(p.name, systemName)]
            == RowOf(LastNamed(ps, p.name).value)
  {
    assert PlanetKey(p.name, systemName) in KeysFor(ps, systemName);
  }

  /** Upserting the same planets twice leaves the table as upserting them once. */
  lemma UpsertPlanetsIdempotent(m: map<PlanetKey, PlanetRow>, systemName: string, ps: seq<Planet>)
    ensures UpsertPlanets(UpsertPlanets(m, systemName, ps), systemName, ps) == UpsertPlanets(m, systemName, ps)
  {
    var once := UpsertPlanets(m, systemName, ps);
    var twice := UpsertPlanets(once, systemName, ps);
    assert twice.Keys == once.Keys;
    forall k | k in twice ensures twice[k] == once[k] {
    }
  }

  /** Upserts the row of system `s` by name. */
  function UpsertSystem(m: map<string, SystemRow>, s: StarSystem): (r: map<string, SystemRow>)
    ensures r.Keys == m.Keys + {s.name}
    ensures forall n :: n in m && n != s.name ==> r[n] == m[n]
    ensures LoadText(r[s.name].spectralType) == if s.spectralType == "" then "Unknown" else s.spectralType
    ensures LoadNumber(r[s.name].distanceLy) == s.distanceLy
    ensures |r| == |m| + (if s.name in m then 0 else 1)
  {
    var r := m[s.name := SystemRow(Some(s.spectralType), Some(s.distanceLy))];
    assert |r| == |m| + (if s.name in m then 0 else 1) by {
      if s.name in m {
        assert r.Keys == m.Keys;
      } else {
        assert r.Keys == m.Keys + {s.name};
      }
    }
    r
  }

  /** The save of one system: its row is upserted by name, then each of its planets by
      (planet name, system name). Planets stored earlier and absent now are kept. */
  function SaveSystem(db: Db, s: StarSystem): (r: Db)
    ensures r.systems.Keys == db.systems.Keys + {s.name}
    ensures forall n :: n in db.systems && n != s.name ==> r.systems[n] == db.systems[n]
    ensures LoadText(r.systems[s.name].spectralType) == if s.spectralType == "" then "Unknown" else s.spectralType
    ensures LoadNumber(r.systems[s.name].distanceLy) == s.distanceLy
    ensures |r.systems| == |db.systems| + (if s.name in db.systems then 0 else 1)
    ensures r.planets.Keys == db.planets.Keys + KeysFor(s.planets, s.name)
    ensures forall k :: k in db.planets && k.systemName != s.name ==> r.planets[k] == db.planets[k]
    ensures forall k :: k in db.planets && k !in KeysFor(s.planets, s.name) ==> r.planets[k] == db.planets[k]
    ensures forall p :: p in s.planets ==>
      r.planets[PlanetKey(p.name, s.name)] == RowOf(LastNamed(s.planets, p.name).value)
  {
    var planets := UpsertPlanets(db.planets, s.name, s.planets);
    assert forall k :: k in db.planets && k !in KeysFor(s.planets, s.name) ==> planets[k] == db.planets[k] by {
      forall k | k in db.planets && k !in KeysFor(s.planets, s.name) ensures planets[k] == db.planets[k] {
        var last := LastNamed(s.planets, k.name);
        if last.Some? {
          assert PlanetKey(last.value.name, s.name) in KeysFor(s.planets, s.name);
        }
      }
    }
    assert forall p :: p in s.planets ==>
      PlanetKey(p.name, s.name) in planets && LastNamed(s.planets, p.name).Some? &&
      planets[PlanetKey(p.name, s.name)] == RowOf(LastNamed(s.planets, p.name).value) by {
      forall p | p in s.planets
        ensures PlanetKey(p.name, s.name) in planets && LastNamed(s.planets, p.name).Some?
        ensures planets[PlanetKey(p.name, s.name)] == RowOf(LastNamed(s.planets, p.name).value)
      {
        UpsertPlanetsSaved(db.planets, s.name, s.planets, p);
      }
    }
    Db(UpsertSystem(db.systems, s), planets)
  }

  /** Saving the same system twice leaves the store as saving it once. */
  lemma SaveIdempotent(db: Db, s: StarSystem)
    ensures SaveSystem(SaveSystem(db, s), s) == SaveSystem(db, s)
  {
    UpsertPlanetsIdempotent(db.planets, s.name, s.planets);
    assert SaveSystem(SaveSystem(db, s), s).systems == SaveSystem(db, s).systems;
  }

  /** The planet keys stored for system `name`. */
  function KeysOf(db: Db, name: string): set<PlanetKey> {
    set k | k in db.planets && k.systemName == name
  }

  /** The planets stored under keys `ks`, as read back. */
  ghost function ReadBack(db: Db, ks: set<PlanetKey>): set<Planet>
    requires ks <= db.planets.Keys
  {
    set k | k in ks :: LoadPlanet(k, db.planets[k])
  }

  lemma ReadBackAdd(db: Db, ks: set<PlanetKey>, k: PlanetKey)
    requires ks <= db.planets.Keys && k in db.planets
    ensures ReadBack(db, ks + {k}) == ReadBack(db, ks) + {LoadPlanet(k, db.planets[k])}
  {
  }

  /** The planets stored for system `name`, as read back. */
  ghost function StoredPlanets(db: Db, name: string): set<Planet> {
    ReadBack(db, KeysOf(db, name))
  }

  /** `ps` lists the planets stored for system `name`: one entry per stored row, each read
      back with NULL numbers as 0.0, in no particular order. */
  ghost predicate ListsPlanetsOf(db: Db, name: string, ps: seq<Planet>) {
    && |ps| == |KeysOf(db, name)|
    && (forall i, j :: 0 <= i < j < |ps| ==> ps[i].name != ps[j].name)
    && (forall p :: p in ps <==> p in StoredPlanets(db, name))
  }

  /** `s` is system `name` as read back from the store. */
  ghost predicate Loaded(db: Db, name: string, s: StarSystem) {
    && name in db.systems
    && s.name == name
    && s.spectralType == LoadText(db.systems[name].spectralType)
    && s.distanceLy == LoadNumber(db.systems[name].distanceLy)
    && ListsPlanetsOf(db, name, s.planets)
  }

  /** `ps` reads back exactly the stored rows under keys `done` of system `name`. */
  ghost predicate ReadSoFar(db: Db, name: string, done: set<PlanetKey>, ps: seq<Planet>)
    requires done <= db.planets.Keys
  {
    && |ps| == |done|
    && (forall i :: 0 <= i < |ps| ==> PlanetKey(ps[i].name, name) in done)
    && (forall i, j :: 0 <= i < j < |ps| ==> ps[i].name != ps[j].name)
    && (forall p :: p in ps <==> p in ReadBack(db, done))
  }

  /** Reading one more row of system `name` keeps `ReadSoFar`. */
  lemma ReadOneMore(db: Db, name: string, done: set<PlanetKey>, ps: seq<Planet>, k: PlanetKey)
    requires done <= db.planets.Keys && k in db.planets && k !in done && k.systemName == name
    requires ReadSoFar(db, name, done, ps)
    ensures ReadSoFar(db, name, done + {k}, ps + [LoadPlanet(k, db.planets[k])])
  {
    var p := LoadPlanet(k, db.planets[k]);
    var ps' := ps + [p];
    ReadBackAdd(db, done, k);
    assert |done + {k}| == |done| + 1;
    forall i | 0 <= i < |ps| ensures ps[i].name != p.name {
      assert PlanetKey(ps[i].name, name) in done;
    }
    forall i | 0 <= i < |ps'| ensures PlanetKey(ps'[i].name, name) in done + {k} {
      if i < |ps| { assert ps'[i] == ps[i]; }
    }
    forall i, j | 0 <= i < j < |ps'| ensures ps'[i].name != ps'[j].name {
      assert ps'[i] == ps[i];
      if j < |ps| { assert ps'[j] == ps[j]; }
    }
    assert forall q :: q in ps' <==> q in ps || q == p;
  }

  /** Reads the planets stored for system `name`, in whatever order the rows come. */
  method LoadPlanets(db: Db, name: string) returns (ps: seq<Planet>)
    ensures ListsPlanetsOf(db, name, ps)
  {
    var todo := KeysOf(db, name);
    ghost var done: set<PlanetKey> := {};
    ps := [];
    while todo != {}
      invariant todo !! done && todo + done == KeysOf(db, name)
      invariant ReadSoFar(db, name, done, ps)
      decreases |todo|
    {
      var k :| k in todo;
      assert k in KeysOf(db, name);
      ReadOneMore(db, name, done, ps, k);
      ps := ps + [LoadPlanet(k, db.planets[k])];
      todo := todo - {k};
      done := done + {k};
    }
    assert done == KeysOf(db, name);
  }

  /** Reads one system row and its planets. */
  method LoadSystem(db: Db, name: string) returns (s: StarSystem)
    requires name in db.systems
    ensures Loaded(db, name, s)
  {
    var row := db.systems[name];
    var ps := LoadPlanets(db, name);
    s := StarSystem(name, LoadText(row.spectralType), LoadNumber(row.distanceLy), ps);
  }

  /** A system saved and then read back has the spectral type it was saved with ("Unknown"
      for an empty one), its distance, and, for each name among its planets, the values of
      the last planet with that name. */
  lemma SaveThenLoad(db: Db, s: StarSystem, loaded: StarSystem)
    requires Loaded(SaveSystem(db, s), s.name, loaded)
    ensures loaded.spectralType == if s.spectralType == "" then "Unknown" else s.spectralType
    ensures loaded.distanceLy == s.distanceLy
    ensures forall p :: p in s.planets ==> LastNamed(s.planets, p.name).value in loaded.planets
    ensures (forall i, j :: 0 <= i < j < |s.planets| ==> s.planets[i].name != s.planets[j].name)
            ==> forall p :: p in s.planets ==> p in loaded.planets
  {
    var r := SaveSystem(db, s);
    forall p | p in s.planets ensures LastNamed(s.planets, p.name).value in loaded.planets {
      var q := LastNamed(s.planets, p.name).value;
      var k := PlanetKey(p.name, s.name);
      assert k in KeysFor(s.planets, s.name);
      assert k in KeysOf(r, s.name);
      LoadWrittenPlanet(q, s.name);
      assert LoadPlanet(k, r.planets[k]) == q;
    }
    if forall i, j :: 0 <= i < j < |s.planets| ==> s.planets[i].name != s.planets[j].name {
      forall p | p in s.planets ensures p in loaded.planets {
        LastNamedDistinct(s.planets, p);
      }
    }
  }

  /** Dropping the first of distinctly named planets leaves distinct names, none of them
      the first planet's. */
  lemma DistinctNamesUncons(ps: seq<Planet>)
    requires ps != []
    requires forall i, j :: 0 <= i < j < |ps| ==> ps[i].name != ps[j].name
    ensures forall i, j :: 0 <= i < j < |ps[1..]| ==> ps[1..][i].name != ps[1..][j].name
    ensures forall p :: p in ps[1..] ==> p.name != ps[0].name
  {
    var rest := ps[1..];
    forall i, j | 0 <= i < j < |rest| ensures rest[i].name != rest[j].name {
      assert rest[i] == ps[i + 1] && rest[j] == ps[j + 1];
    }
    forall p | p in rest ensures p.name != ps[0].name {
      var j :| 0 <= j < |rest| && rest[j] == p;
      assert ps[j + 1] == p;
    }
  }

  /** Distinctly named planets get distinct keys. */
  lemma {:induction false} KeysForSize(ps: seq<Planet>, systemName: string)
    requires forall i, j :: 0 <= i < j < |ps| ==> ps[i].name != ps[j].name
    ensures |KeysFor(ps, systemName)| == |ps|
    decreases |ps|
  {
    if ps != [] {
      DistinctNamesUncons(ps);
      KeysForSize(ps[1..], systemName);
      KeysForCons(ps, systemName);
      assert PlanetKey(ps[0].name, systemName) !in KeysFor(ps[1..], systemName);
    }
  }

  /** A planet read back after saving into an empty store is one of the saved planets. */
  lemma StoredFromEmpty(s: StarSystem, p: Planet)
    requires p in StoredPlanets(SaveSystem(EmptyDb, s), s.name)
    ensures p in s.planets
  {
    var r := SaveSystem(EmptyDb, s);
    var k :| k in KeysOf(r, s.name) && p == LoadPlanet(k, r.planets[k]);
    var q :| q in s.planets && PlanetKey(q.name, s.name) == k;
    var last := LastNamed(s.planets, q.name).value;
    LoadWrittenPlanet(last, s.name);
  }

  /** Saving into an empty store leaves exactly the system's own planet keys. */
  lemma KeysOfFromEmpty(s: StarSystem)
    ensures KeysOf(SaveSystem(EmptyDb, s), s.name) == KeysFor(s.planets, s.name)
  {
    var r := SaveSystem(EmptyDb, s);
    assert r.planets.Keys == KeysFor(s.planets, s.name);
    forall k | k in KeysFor(s.planets, s.name) ensures k.systemName == s.name {
      KeysForSystem(s.planets, s.name, k);
    }
  }

  /** A system with distinctly named planets, saved into an empty store and read back, has
      exactly its planets: as many, and the same ones. */
  lemma SaveIntoEmptyRoundTrip(s: StarSystem, loaded: StarSystem)
    requires forall i, j :: 0 <= i < j < |s.planets| ==> s.planets[i].name != s.planets[j].name
    requires Loaded(SaveSystem(EmptyDb, s), s.name, loaded)
    ensures |loaded.planets| == |s.planets|
    ensures forall p :: p in loaded.planets <==> p in s.planets
  {
    SaveIntoEmptyCount(s, loaded);
    SaveIntoEmptyMembers(s, loaded);
  }

  lemma SaveIntoEmptyCount(s: StarSystem, loaded: StarSystem)
    requires forall i, j :: 0 <= i < j < |s.planets| ==> s.planets[i].name != s.planets[j].name
    requires Loaded(SaveSystem(EmptyDb, s), s.name, loaded)
    ensures |loaded.planets| == |s.planets|
  {
    KeysOfFromEmpty(s);
    KeysForSize(s.planets, s.name);
  }

  lemma SaveIntoEmptyMembers(s: StarSystem, loaded: StarSystem)
    requires forall i, j :: 0 <= i < j < |s.planets| ==> s.planets[i].name != s.planets[j].name
    requires Loaded(SaveSystem(EmptyDb, s), s.name, loaded)
    ensures forall p :: p in loaded.planets <==> p in s.planets
  {
    SaveIntoEmptyKeeps(s, loaded);
    forall p | p in loaded.planets ensures p in s.planets {
      LoadedFromEmpty(s, loaded, p);
    }
  }

  lemma SaveIntoEmptyKeeps(s: StarSystem, loaded: StarSystem)
    requires forall i, j :: 0 <= i < j < |s.planets| ==> s.planets[i].name != s.planets[j].name
    requires Loaded(SaveSystem(EmptyDb, s), s.name, loaded)
    ensures forall p :: p in s.planets ==> p in loaded.planets
  {
    SaveThenLoad(EmptyDb, s, loaded);
  }

  lemma LoadedFromEmpty(s: StarSystem, loaded: StarSystem, p: Planet)
    requires Loaded(SaveSystem(EmptyDb, s), s.name, loaded)
    requires p in loaded.planets
    ensures p in s.planets
  {
    assert p in StoredPlanets(SaveSystem(EmptyDb, s), s.name);
    StoredFromEmpty(s, p);
  }
}

=== FILE: text.dfy ===
/** ASCII case mapping and substring search, as used by the catalog's case-insensitive
    comparisons (`str.lower`, `str.upper`, the `in` operator on strings). */
module Text {

  function LowerChar(c: char): (r: char)
    ensures 'A' <= c <= 'Z' ==> 'a' <= r <= 'z'
    ensures !('A' <= c <= 'Z') ==> r == c
  {
    if 'A' <= c <= 'Z' then (c as int + 32) as char else c
  }

  function UpperChar(c: char): (r: char)
    ensures 'a' <= c <= 'z' ==> 'A' <= r <= 'Z'
    ensures !('a' <= c <= 'z') ==> r == c
  {
    if 'a' <= c <= 'z' then (c as int - 32) as char else c
  }

  /** `s.lower()` restricted to ASCII letters. */
  function Lower(s: string): (r: string)
    ensures |r| == |s|
  {
    seq(|s|, i requires 0 <= i < |s| => LowerChar(s[i]))
  }

  /** `s.upper()` restricted to ASCII letters. */
  function Upper(s: string): (r: string)
    ensures |r| == |s|
  {
    seq(|s|, i requires 0 <= i < |s| => UpperChar(s[i]))
  }

  predicate IsPrefix(p: string, s: string) {
    |p| <= |s| && s[..|p|] == p
  }

  /** Python's `needle in hay` for strings, computed by scanning. */
  predicate Contains(hay: string, needle: string)
    decreases |hay|
  {
    IsPrefix(needle, hay) || (hay != [] && Contains(hay[1..], needle))
  }

  /** The declarative reading of `needle in hay`: `needle` occurs at some offset. */
  ghost predicate OccursAt(hay: string, needle: string, i: int) {
    0 <= i && i + |needle| <= |hay| && hay[i..i + |needle|] == needle
  }

  lemma {:induction false} ContainsIffOccurs(hay: string, needle: string)
    ensures Contains(hay, needle) <==> exists i :: OccursAt(hay, needle, i)
    decreases |hay|
  {
    if Contains(hay, needle) {
      if IsPrefix(needle, hay) {
        assert OccursAt(hay, needle, 0);
      } else {
        ContainsIffOccurs(hay[1..], needle);
        var i :| OccursAt(hay[1..], needle, i);
        assert hay[1..][i..i + |needle|] == hay[i + 1..i + 1 + |needle|];
        assert OccursAt(hay, needle, i + 1);
      }
    }
    if exists i :: OccursAt(hay, needle, i) {
      var i :| OccursAt(hay, needle, i);
      if i > 0 {
        assert hay[1..][i - 1..i - 1 + |needle|] == hay[i..i + |needle|];
        assert OccursAt(hay[1..], needle, i - 1);
        ContainsIffOccurs(hay[1..], needle);
      }
    }
  }

  /** The empty string occurs in every string, as in Python. */
  lemma EmptyOccursEverywhere(hay: string)
    ensures Contains(hay, "")
  {
    assert IsPrefix("", hay);
  }
}

=== FILE: web_data.dfy ===
/** The older ingestion path: archive records to star systems, naming nameless planets. */
module WebData {
  import opened Wrappers
  import opened Planets
  import opened StarSystems
  import opened Ingestion
  import ExoplanetService

  const UnnamedPlanet := "Unnamed Planet"

  /** The planet every record describes; a missing or empty name becomes "Unnamed Planet". */
  function WebPlanet(rec: RawRecord): (r: Option<Planet>)
    ensures r.Some?
    ensures r.value.name == if ExoplanetService.Named(rec) then rec.planetName.value else UnnamedPlanet
    ensures r.value.mass == (if rec.massJupiter.Num? then rec.massJupiter.value * 317.8 else 0.0)
    ensures r.value.radius == (if rec.radiusJupiter.Num? then rec.radiusJupiter.value * 11.2 else 0.0)
    ensures r.value.orbitDistance == (if rec.orbitalPeriod.Num? then rec.orbitalPeriod.value else 0.0)
  {
    Some(Planet(OrElse(rec.planetName, UnnamedPlanet),
                SafeFloat(rec.massJupiter, 0.0, MassJupiterToEarth),
                SafeFloat(rec.radiusJupiter, 0.0, RadiusJupiterToEarth),
                SafeFloat(rec.orbitalPeriod, 0.0, 1.0)))
  }

  /** Groups already acquired records into systems, one planet per record. */
  function GetWebData(data: seq<RawRecord>): (r: seq<StarSystem>)
    ensures r == [] <==> data == []
    ensures r == Reference(data, WebPlanet)
    ensures TotalPlanets(r) == |data|
    ensures forall i, j :: 0 <= i < j < |r| ==> r[i].name != r[j].name
  {
    EveryRecordMakes(data, WebPlanet);
    GroupMatchesReference(data, WebPlanet);
    if data == [] then [] else Group(data, WebPlanet)
  }

  /** On records that all carry planet names, the two ingestion paths agree. */
  lemma AgreesWhenAllNamed(data: seq<RawRecord>)
    requires forall k :: 0 <= k < |data| ==> ExoplanetService.Named(data[k])
    ensures GetWebData(data) == ExoplanetService.FetchSystems(data)
  {
    GroupCongruent(data, WebPlanet, ExoplanetService.CreatePlanet);
  }
}

=== FILE: wrappers.dfy ===
/** Optional values: Python's `None` versus a present value. */
module Wrappers {

  datatype Option<+T> = None | Some(value: T)
}
